=== FILE: README.md ===
# OpenSKOS API guard layer in Dafny

This project models the checks OpenSKOS 2 runs before it writes a concept or
another resource to its triple store, or removes one. It also models the
small parsers and folds around those checks. Every model is a pure
function, a lemma or a short method, and everything is proved.

- **Rdf** models the in-memory resource. A resource has an optional URI and an
  ordered list of predicates with their values; it is blank when the URI is
  missing. The store is a finite set of triples.
- **SkosVocabulary** holds the SKOS property constants of `Concept` and their
  `$classes` grouping. It also holds the constructor, which stamps
  rdf:type skos:Concept. The grouping follows section 8 (semantic
  relations) and section 10 (mapping properties) of the SKOS Reference,
  W3C Recommendation 18 August 2009.
- **RelationIntegrity** models `checkRelationsInConcept`. Each predicate of
  a concept is either a concept-to-concept relation or a property from a
  standard namespace. A relation must be registered when it is
  user-defined, and its targets must be stored concepts. The duplicate
  and cycle checks belong to the concept manager. They appear as oracles,
  and every consultation is recorded so that lemmas can say when it
  happens.
- **TripleStoreResource** models the generic API class:
  - tenant and user resolution;
  - the identifier contract of `checkResourceIdentifiers`;
  - validation;
  - the one-Description rule for request bodies;
  - the `create`, `update` and `deleteResourceObject` pipelines.

  Each pipeline returns a `Run`: the result the API reports, plus the one
  store write it asks for, if any. This makes "no write unless every
  earlier check passed" a provable statement.
- **ConceptApi** models the concept API: the soft delete, the
  relation-edge edits and their pre-checks, the sort-string parser and
  its field-name mapping, the fields-list resolver, and the paging window.
- **Tenants** models the tenant manager:
  - the per-set summary fold;
  - the one-institution rule of the uuid lookup;
  - the three-step delete of a tenant together with its organisation and
    address nodes.
- **EditorRelations** models the relation decisions of the browser editor
  (`relations.js`).
- **Php** and **Results** hold the PHP built-ins with their PHP semantics
  written out (`empty`, `strtolower`, `trim`, `explode`/`implode`,
  `str_replace`, `substr`, `filter_var`), and the error-carrying result
  types.

These collaborators are function-valued fields of the `Manager` and
`RelationEnv` datatypes: the authorisation module, the deletion guard, the
preprocessor, the structural validator, the RDF-XML converter, the manager's
own delete, the read-back after a write (`fetchByUri` followed by the RDF
transform), the duplicate and cycle checks, and the standard-namespace test.
The users table and the tenant table are maps. The manager's soft delete and
its relation-triple writes are not part of this model either. `Apply` gives
them an assumed effect: the soft delete replaces the concept's status triple
by "deleted", and adding or removing a relation edge adds or removes exactly
that triple.

Several places follow the code rather than the documented intent:

- In `Concept::delete` and `preEditChecksRels` the boolean returned by the
  authorisation module is discarded. Only an exception from the module
  stops the operation (`ConceptApi.ConceptDeleteIgnoresRefusal`).
- The authorisation call in `update` passes a variable that is never
  assigned. The model passes `Unbound`.
- The empty-body test in `getDomDocumentFromRequest` is applied to a stream
  object, so it never fires. An empty body reaches `loadXML('')`, which in
  PHP 8 throws a `ValueError`. That is an `Error`, not an `Exception`, so no
  handler catches it. The model treats an empty body as `NotWellFormed`,
  the 412 of a malformed document.
- `create` builds the preprocessor with the user's foaf:Person URI, and
  `update` with the tenant code and that URI. Both argument lists are passed
  to the preprocessor oracle as written.
- After the insert, `create` reads the resource back under the submitted
  URI, not the preprocessed one. With generated identifiers the submission
  is blank, so the read-back is asked about no URI
  (`TripleStoreResource.CreateReadsBackSubmittedUri`). A failed read-back is
  reported as a failure although the write happened.
- `Concept::delete` and `deleteRelationTriple` catch nothing (see Findings).
  The model's `ConceptDelete` and `DeleteRelationTriple` answer their
  failures the way the handler evidently intends.
- The sort-field test `substr($term, strlen($term) - 3, 1)` reads the last
  character for a two-character term and the only character for a
  one-character term (`ConceptApi.ThirdFromEnd`). PHP's `strlen` and
  `substr` count bytes, while a model `string` is a sequence of characters,
  so the test agrees with PHP when the term's last three characters are
  single-byte (ASCII) in UTF-8; see "Left out".

## Model

| member | source | states |
|---|---|---|
| Php.ToLower | library/OpenSkos2/Api/AbstractTripleStoreResource.php:367 | `strtolower` keeps the length and lower-cases each ASCII letter in place |
| Php.LowerIsY | library/OpenSkos2/Api/AbstractTripleStoreResource.php:367 | the lower-case form of the `active` flag is "y" exactly when the flag is "y" or "Y" |
| Php.Trim | library/OpenSkos2/Api/Concept.php:193 | after `trim` neither end of the string is a stripped character |
| Php.TrimKeepsMiddle | library/OpenSkos2/Api/Concept.php:193 | `trim` returns the part of the string between a prefix and a suffix of stripped characters |
| Php.Explode | library/OpenSkos2/Api/Concept.php:303 | `explode` yields at least one part and no part contains the separator |
| Php.JoinExplode | library/OpenSkos2/Api/Concept.php:303 | `implode` with the same separator restores the exploded string |
| Php.ReplaceChar | library/OpenSkos2/Api/Concept.php:333 | `str_replace` of one character keeps the length and changes exactly the matching positions |
| Php.SubstrOne | library/OpenSkos2/Api/Concept.php:326 | the one-character `substr` (PHP 8) returns the character at a start inside the string, the one that far from the end for a negative start, the first one for a start before the beginning, and "" for a start at or past the end or an empty string; positions are characters, which are PHP's bytes for ASCII text |
| Php.SubstrOneNegativeStart | library/OpenSkos2/Api/Concept.php:326 | a negative start reads the same character as the start counted from the beginning; a character is read exactly when the string is non-empty and the start is before its end, and it is a character of the string |
| Rdf.AddProperty | library/OpenSkos2/Concept.php:129 | `addProperty` appends the value to that predicate's values, keeps the URI and leaves every other predicate unchanged |
| Rdf.AddValuePreds | library/OpenSkos2/Api/AbstractTripleStoreResource.php:248-250 | appending a value adds exactly its predicate to the predicate set and keeps predicates distinct |
| Rdf.RemoveSubject | library/OpenSkos2/TenantManager.php:146 | `DELETE WHERE {<r> ?p ?o}` leaves exactly the triples whose subject is not r, so the store no longer describes r |
| SkosVocabulary.SignatureRoundTrip | library/OpenSkos2/Concept.php:18-60 | each constant is recovered from the length and the first and last letters of its local name |
| SkosVocabulary.PropertyUriRoundTrip | library/OpenSkos2/Concept.php:18-60 | every property constant is a URI in the SKOS core namespace and reads back as the same constant |
| SkosVocabulary.PropertyUriInjective | library/OpenSkos2/Concept.php:18-60 | distinct constants have distinct URIs |
| SkosVocabulary.ConceptTypeInSkosNamespace | library/OpenSkos2/Concept.php:15 | the Concept type is in the SKOS namespace and is not one of the property constants |
| SkosVocabulary.ClassesPartition | library/OpenSkos2/Concept.php:68-120 | each constant is listed in exactly one `$classes` group |
| SkosVocabulary.ClassesDisjoint | library/OpenSkos2/Concept.php:68-120 | no URI belongs to two `$classes` groups |
| SkosVocabulary.NewConcept | library/OpenSkos2/Concept.php:126-130 | a new concept keeps the given URI, has rdf:type skos:Concept as its only property, and is a concept |
| RelationIntegrity.CheckTargets | library/OpenSkos2/Api/Concept.php:282-291 | the targets of a relation pass iff each is a stored concept and neither oracle objects; oracles are consulted only about existing targets, the cycle oracle only after the duplicate oracle passed, and both about every target when the check passes |
| RelationIntegrity.CheckProperty | library/OpenSkos2/Api/Concept.php:274-297 | one predicate passes iff it is an admissible relation or a standard-namespace property; an unregistered user-defined relation and a non-standard property are each refused with their 400 before any oracle is consulted |
| RelationIntegrity.CheckProperties | library/OpenSkos2/Api/Concept.php:273-298 | the loop passes iff every predicate is admissible, reports the error of the first inadmissible one, and consults oracles only when justified |
| RelationIntegrity.CheckRelationsInConcept | library/OpenSkos2/Api/Concept.php:268-300 | a concept passes iff every predicate is admissible, and every oracle consultation is justified |
| RelationIntegrity.UnregisteredRelationRefused | library/OpenSkos2/Api/Concept.php:275-280 | a concept with an unregistered user-defined relation is refused |
| RelationIntegrity.MissingTargetRefused | library/OpenSkos2/Api/Concept.php:283-288 | a relation to a target that is not a stored concept is refused |
| RelationIntegrity.FirstUnregisteredReported | library/OpenSkos2/Api/Concept.php:273-280 | when the first inadmissible predicate is an unregistered relation, the refusal is the 400 naming it |
| TripleStoreResource.GetAndAdaptQueryParams | library/OpenSkos2/Api/AbstractTripleStoreResource.php:48-61 | an empty tenant is 412 and an unknown one is 400; on success the parameters gain `tenantcode` = tenant and `tenanturi` = the resolved URI and nothing else changes |
| TripleStoreResource.GetParamValue | library/OpenSkos2/Api/AbstractTripleStoreResource.php:324-330 | a PHP-empty parameter is 412 naming it; otherwise its non-empty value is returned |
| TripleStoreResource.GetUserByKey | library/OpenSkos2/Api/AbstractTripleStoreResource.php:356-372 | a user is accepted iff found, API-allowed and active "y" in either case; every refusal is 401, an unknown key is reported first and a disallowed user next |
| TripleStoreResource.GetUserFromParams | library/OpenSkos2/Api/AbstractTripleStoreResource.php:332-335 | a missing key is 412; otherwise the result is the user lookup for the key |
| TripleStoreResource.AutoGenerateRefusals | library/OpenSkos2/Api/AbstractTripleStoreResource.php:286-291 | an absent or "0" parameter is PHP-empty and requests no generation, and "no" is read as false |
| TripleStoreResource.AutoGenerateByValue | library/OpenSkos2/Api/AbstractTripleStoreResource.php:286-291 | a value PHP does not treat as empty requests generation exactly when the boolean filter reads it as true |
| TripleStoreResource.IdentifierRule | library/OpenSkos2/Api/AbstractTripleStoreResource.php:293-321 | with generation requested the resource must be blank and carry no uuid; otherwise it must carry a URI and a uuid; the URI is checked first, each failure is 400, and success returns whether generation was requested |
| TripleStoreResource.BaseValidate | library/OpenSkos2/Api/AbstractTripleStoreResource.php:340-347 | validation fails exactly when the validator says invalid, with its messages joined by one space and code 400 |
| TripleStoreResource.Validate | library/OpenSkos2/Api/Concept.php:259-262 | for concepts, validation passes iff the validator accepts and every predicate passes the relation checks |
| TripleStoreResource.DecodeBody | library/OpenSkos2/Api/AbstractTripleStoreResource.php:238-280 | a body is accepted iff it is well-formed with root rdf:RDF, has exactly one Description and converts to the expected class; a wrong Description count is 412; the result is the Description with the manager's type appended |
| TripleStoreResource.AuthoriseByAnswer | library/OpenSkos2/Api/AbstractTripleStoreResource.php:155-157 | an authorisation answer passes only when granted, and a refusal is 403 |
| TripleStoreResource.CreateRequest | library/OpenSkos2/Api/AbstractTripleStoreResource.php:151-153 | the resolved request carries the adapted parameters and the decoded body |
| TripleStoreResource.CreateChecked | library/OpenSkos2/Api/AbstractTripleStoreResource.php:150-167 | the create checks pass exactly when the request resolves and every check on it passes, and then carry the submitted resource and its preprocessed form |
| TripleStoreResource.ReportedCode | library/OpenSkos2/Api/AbstractTripleStoreResource.php:172-176 | the status create answers a failure with is never 0, and a non-zero exception code is kept |
| TripleStoreResource.Create | library/OpenSkos2/Api/AbstractTripleStoreResource.php:148-179 | create inserts exactly when resolution and every check pass, and inserts the preprocessed resource; a success always follows an insert; no failure is reported with code 0 |
| TripleStoreResource.CreateReportsCheckFailure | library/OpenSkos2/Api/AbstractTripleStoreResource.php:172-176 | a failure before the insert writes nothing and is reported with its own reason and code, except that code 0 becomes 500 |
| TripleStoreResource.CreateReadsBackSubmittedUri | library/OpenSkos2/Api/AbstractTripleStoreResource.php:168-176 | after the insert the store is read back under the submitted URI, which is no URI for a blank submission; the read-back is the reported result, and its failure is reported (0 as 500) with the insert done |
| TripleStoreResource.CreateNeedsAuthorisation | library/OpenSkos2/Api/AbstractTripleStoreResource.php:155-157 | without authorisation nothing is inserted, and a refusal is reported as 403 |
| TripleStoreResource.CreateRefusesExistingUri | library/OpenSkos2/Api/AbstractTripleStoreResource.php:158-162 | once authorised, a named resource whose URI is already stored is a 400 with no insert |
| TripleStoreResource.CreateWritesOnlyCheckedResources | library/OpenSkos2/Api/AbstractTripleStoreResource.php:155-168 | every insert was authorised, has a fresh URI, meets the identifier contract, is the preprocessor's output, and passed validation |
| TripleStoreResource.Update | library/OpenSkos2/Api/AbstractTripleStoreResource.php:181-205 | update replaces exactly when its checks pass, with the preprocessed resource; a success always follows a replace; a failed check is reported with its own code |
| TripleStoreResource.UpdateReadsBackSubmittedUri | library/OpenSkos2/Api/AbstractTripleStoreResource.php:193-197 | after the replace the store is read back under the decoded resource's URI, which is always present, and that read-back is the reported result |
| TripleStoreResource.UpdateRefusesBlank | library/OpenSkos2/Api/AbstractTripleStoreResource.php:183-186 | a decoded blank resource is a 400 and nothing is replaced |
| TripleStoreResource.UpdateWritesOnlyCheckedResources | library/OpenSkos2/Api/AbstractTripleStoreResource.php:183-197 | every replace is of a named resource that was authorised, preprocessed and validated for update |
| TripleStoreResource.DeleteChecks | library/OpenSkos2/Api/AbstractTripleStoreResource.php:207-229 | a tenant failure passes through unchanged; an empty `uri` is refused with code 0 before the store is asked; a URI the store does not describe is 404; a pass names a URI the store describes |
| TripleStoreResource.DeleteAfterLookup | library/OpenSkos2/Api/AbstractTripleStoreResource.php:220-229 | once the URI is found, the user is resolved, then a refusal from the authorisation module is 403 and a raise passes through, then a resource that cannot be deleted is 412; otherwise the checks pass with that URI |
| TripleStoreResource.DeleteResourceObject | library/OpenSkos2/Api/AbstractTripleStoreResource.php:207-236 | the store delete is asked for exactly when the checks pass, for the checked URI |
| TripleStoreResource.DeleteWritesOnlyAfterChecks | library/OpenSkos2/Api/AbstractTripleStoreResource.php:210-229 | a delete happens only for a stored URI, with a known user, granted authorisation and the deletion guard's consent |
| TripleStoreResource.DeleteUnknownIsNotFound | library/OpenSkos2/Api/AbstractTripleStoreResource.php:215-218 | an unknown URI is 404 before the user or authorisation is consulted |
| TripleStoreResource.DeleteTwiceIsNotFound | library/OpenSkos2/Api/AbstractTripleStoreResource.php:207-229 | after a successful delete by a manager that removes the resource, the same request is 404 |
| ConceptApi.AuthoriseByException | library/OpenSkos2/Api/Concept.php:245 | a discarded authorisation answer stops the caller only when it is an exception |
| ConceptApi.ConceptDeleteChecks | library/OpenSkos2/Api/Concept.php:228-247 | a missing id is 412, an unknown concept 404 and a deleted one 410, in that order; a passing check names a stored, undeleted concept, for a user that resolved and an authorisation call that raised nothing |
| ConceptApi.ConceptDeleteAuthRaises | library/OpenSkos2/Api/Concept.php:245-249 | an authorisation call that raises stops the delete with its own error, before the soft delete |
| ConceptApi.CatchingNothing | library/OpenSkos2/Api/Concept.php:250-251 | a handler whose catch matches nothing lets every failure through unchanged and answers only successes |
| ConceptApi.ConceptDeleteAsWritten | library/OpenSkos2/Api/Concept.php:228-256 | as written, the delete escapes its handler exactly when a check fails, and every answered response is a success |
| ConceptApi.ConceptDelete | library/OpenSkos2/Api/Concept.php:228-256 | the soft delete is asked for exactly when the checks pass |
| ConceptApi.ConceptDeleteMarksDeleted | library/OpenSkos2/Api/Concept.php:247 | after the soft delete the concept's status is deleted and every other triple is unchanged |
| ConceptApi.ConceptDeleteTwiceIsGone | library/OpenSkos2/Api/Concept.php:238-240 | deleting the same concept again is 410 with no write |
| ConceptApi.ConceptDeleteIgnoresRefusal | library/OpenSkos2/Api/Concept.php:245-247 | a `false` from the authorisation module does not stop the soft delete |
| ConceptApi.ConceptDeleteMissingIdEscapes | library/OpenSkos2/Api/Concept.php:229-252 | without an id the corrected delete answers 412, while as written the exception escapes the handler; as written every failure escapes, with the same error |
| ConceptApi.BodyField | library/OpenSkos2/Api/Concept.php:387-398 | a body field is present iff set, otherwise 400 naming it |
| ConceptApi.EditRequest | library/OpenSkos2/Api/Concept.php:387-422 | an edit request passes iff all four fields are set, both endpoints are stored concepts and the type is a relation that is registered if user-defined; the refusals come in the order key, concept, related, type, missing concept, missing related concept, not a relation, unregistered relation |
| ConceptApi.EdgeOracles | library/OpenSkos2/Api/Concept.php:424-427 | a removal consults no oracle; an addition passes only if both oracles pass, and then both were consulted about the edge |
| ConceptApi.PreEditChecksRels | library/OpenSkos2/Api/Concept.php:384-437 | removals consult no oracle; each consultation is justified; a passing check has a valid request, an admissible edge when adding, a valid user from the body key, and no authorisation exception on either endpoint |
| ConceptApi.AddRelationTriple | library/OpenSkos2/Api/Concept.php:348-362 | the edge is added exactly when the pre-checks pass |
| ConceptApi.DeleteRelationTriple | library/OpenSkos2/Api/Concept.php:368-382 | the edge is removed exactly when the pre-checks pass |
| ConceptApi.AddedEdgesAreAdmitted | library/OpenSkos2/Api/Concept.php:348-352 | an added edge joins stored concepts by a registered relation that neither oracle objected to, and is in the store afterwards |
| ConceptApi.DeletedEdgeIsGone | library/OpenSkos2/Api/Concept.php:368-373 | a removed edge is absent afterwards and no other triple changed |
| ConceptApi.DeleteRelationTripleAsWritten | library/OpenSkos2/Api/Concept.php:368-382 | as written, the relation delete escapes its handler exactly when no edge is removed, and every answered response is a success |
| ConceptApi.DeleteRelationMissingKeyEscapes | library/OpenSkos2/Api/Concept.php:369-375 | without a key in the body the corrected relation delete answers 400, while as written the exception escapes the handler |
| ConceptApi.ThirdFromEnd | library/OpenSkos2/Api/Concept.php:326 | the third-from-end test reads the third character from the end (PHP's third byte when the tail is ASCII), or the last one for two-character terms, or the only one for one-character terms |
| ConceptApi.PrepareSortField | library/OpenSkos2/Api/Concept.php:325-338 | internal terms are kept; date fields get "sort_d_"; terms with "@" have each "@" turned into "_" and every other character kept in place; the rest get "sort_s_" |
| ConceptApi.PrepareSortFieldIdempotent | library/OpenSkos2/Api/Concept.php:325-338 | without a stray "@", the mapped name is an internal sort field and mapping it again changes nothing |
| ConceptApi.PrepareSortFieldNotIdempotent | library/OpenSkos2/Api/Concept.php:332-333 | a "@" outside the language-tag position gives a name that is mapped again |
| ConceptApi.SortPairs | library/OpenSkos2/Api/Concept.php:302-321 | each parsed order is "asc" or "desc", and no more pairs than tokens come out |
| ConceptApi.SortPairsDefaultAsc | library/OpenSkos2/Api/Concept.php:307-321 | any field token not followed by "asc" or "desc" is paired with "asc"; at the head of the list it gives the first pair |
| ConceptApi.SortPairsFieldsAreTokens | library/OpenSkos2/Api/Concept.php:307-321 | every parsed field is one of the tokens |
| ConceptApi.SortPairsKeepsField | library/OpenSkos2/Api/Concept.php:307-321 | every token other than "asc" and "desc" becomes the field of some pair, with the order token that follows it or else "asc" |
| ConceptApi.SortPairsRender | library/OpenSkos2/Api/Concept.php:307-321 | a field followed by an order token takes that order: parsing rendered pairs gives them back |
| ConceptApi.Assign | library/OpenSkos2/Api/Concept.php:316 | assigning a sort field sets its order and leaves every other field's order unchanged |
| ConceptApi.LastWriteWins | library/OpenSkos2/Api/Concept.php:316 | a later occurrence of the same sort field overwrites the earlier one |
| ConceptApi.UntouchedKeepsValue | library/OpenSkos2/Api/Concept.php:307-321 | fields no pair maps to keep their order |
| ConceptApi.PrepareSortsLoop | library/OpenSkos2/Api/Concept.php:302-323 | the source's while loop with its trailing-token step computes the pair-then-fold definition |
| ConceptApi.TrimAll | library/OpenSkos2/Api/Concept.php:192-194 | `array_map('trim', …)` trims each part in place |
| ConceptApi.ResolveFields | library/OpenSkos2/Api/Concept.php:200-208 | resolved properties are exactly the mapped or expanded non-empty names |
| ConceptApi.FirstUnrecognised | library/OpenSkos2/Api/Concept.php:211-220 | none is found iff every property is "uri" or a URL; otherwise the first offending property is reported |
| ConceptApi.FieldsListToProperties | library/OpenSkos2/Api/Concept.php:191-226 | the list is accepted iff every resolved property is "uri" or a URL, the result is the resolved list, and a refusal names an unrecognised property |
| ConceptApi.FieldsListMembership | library/OpenSkos2/Api/Concept.php:200-208 | a property is returned iff some non-empty name of the list resolves to it |
| ConceptApi.FieldStringSplit | library/OpenSkos2/Api/Concept.php:192-194 | a string fields list gives one name per comma-separated part; no name contains a comma or starts or ends with white space |
| ConceptApi.QueryWindow | library/OpenSkos2/Api/Concept.php:76-85 | the limit never exceeds MAXIMAL_ROWS and is the smaller of rows and MAXIMAL_ROWS when rows is set; the start defaults to 0 |
| Tenants.KeyFor | library/OpenSkos2/TenantManager.php:73-90 | title, description, webpage, code and uuid are filed under their keys, and no other predicate is |
| Tenants.ArrangeStep | library/OpenSkos2/TenantManager.php:68-90 | one step adds the row's set URI to the keys and no other |
| Tenants.ArrangeKeys | library/OpenSkos2/TenantManager.php:69-72 | every set URI of the answer gets an entry and no other key appears |
| Tenants.UnrecognisedRowIgnored | library/OpenSkos2/TenantManager.php:89-90 | a row with an unrecognised predicate leaves the summary unchanged |
| Tenants.ArrangeLastWins | library/OpenSkos2/TenantManager.php:75-87 | for the same set and key, the later row's value wins |
| Tenants.ArrangeKeyOrigin | library/OpenSkos2/TenantManager.php:73-90 | a key appears for a set only when a row of that set was filed under it |
| Tenants.FetchSetsForTenant | library/OpenSkos2/TenantManager.php:38-53 | the result is empty iff the answer is null or empty, and otherwise has one entry per set URI |
| Tenants.TenantUuidFromCode | library/OpenSkos2/TenantManager.php:115-134 | the lookup succeeds iff exactly one uuid comes back, returning it; more is a duplicate error and none is not-found |
| Tenants.DeleteLinked | library/OpenSkos2/TenantManager.php:142-145 | the two-pattern DELETE WHERE removes every triple of a linked object, and the link itself only when its object has triples |
| Tenants.TenantDelete | library/OpenSkos2/TenantManager.php:140-147 | the delete only removes triples and leaves none with the tenant as subject |
| Tenants.TenantDeleteExactly | library/OpenSkos2/TenantManager.php:140-147 | unless the tenant is its own organisation node, exactly the triples of the tenant and of its organisation and address nodes are removed |
| Tenants.SelfOrganisationKeepsAddress | library/OpenSkos2/TenantManager.php:142-145 | when the tenant is its own organisation node, its address node's triples survive |
| Tenants.TenantDeleteRemovesSubject | library/OpenSkos2/TenantManager.php:146 | the tenant delete meets what the delete pipeline expects of a manager: the resource is gone |
| EditorRelations.SemanticListIsSkos | public/assets/scripts/editor/relations.js:12 | the semantic list is broader, narrower and related from the SKOS semantic relations |
| EditorRelations.MappingListIsSkos | public/assets/scripts/editor/relations.js:13 | the mapping list is the five *Match properties from the SKOS mapping properties |
| EditorRelations.SemanticAndMappingDisjoint | public/assets/scripts/editor/relations.js:11-15 | no relation is in both lists |
| EditorRelations.HasSchemesMatch | public/assets/scripts/editor/relations.js:97-105 | true exactly when some scheme of the second list occurs in the first |
| EditorRelations.InsertLink | public/assets/scripts/editor/relations.js:267-282 | the URI is in the list afterwards, the elements are the old ones plus the URI, no duplicates are introduced, and a listed URI leaves the list unchanged |
| EditorRelations.InsertLinkIdempotent | public/assets/scripts/editor/relations.js:268 | inserting the same URI twice is inserting it once |
| EditorRelations.Unique | public/assets/scripts/editor/relations.js:309 | `unique` gives a duplicate-free list with the same elements |
| EditorRelations.UniqueOfNoDup | public/assets/scripts/editor/relations.js:309 | a duplicate-free list is its own unique list |
| EditorRelations.UniqueIdempotent | public/assets/scripts/editor/relations.js:309 | `unique` is idempotent |
| EditorRelations.RelationSchemes | public/assets/scripts/editor/relations.js:292-310 | a concept's scheme list has no duplicates |
| EditorRelations.CheckPossibility | public/assets/scripts/editor/relations.js:80-96 | no URIs gives null and consistent; otherwise shareScheme is the first URI's match, and the picks are consistent iff every match equals the first |
| EditorRelations.AddMultipleRelations | public/assets/scripts/editor/relations.js:106-133 | relations are added iff concept-scheme mode, or the picks agree and the relation is semantic when they share a scheme and a mapping otherwise; then once per URI in order, else the box is shown for the same URIs |
| EditorRelations.AllowedExcludesOtherList | public/assets/scripts/editor/relations.js:112-122 | outside concept schemes, an allowed semantic relation implies a shared scheme and an allowed mapping implies none |
| EditorRelations.InsertLinkAsWritten | public/assets/scripts/editor/relations.js:267-282 | the substring-matching insert appends the URI exactly when no listed URI text contains it, and otherwise leaves the list; the appended link is taken to show the URI |
| EditorRelations.InsertLinkAsWrittenDropsPrefix | public/assets/scripts/editor/relations.js:268 | a URI that is a prefix of a listed one is never added |
| EditorRelations.InsertLinkAgrees | public/assets/scripts/editor/relations.js:268 | the substring test and the membership test agree when no listed URI text properly contains the new one |

## Left out

- HTTP request and response objects, streams, and the RDF/JSON serialisers: I/O plumbing.
- XML parsing and the RDF-XML converter: a request body is given already parsed as `RequestBody`, and the converter's class test is the `isInstance` oracle.
- SPARQL query text, the store client, and the Solr search of `findConcepts`: the store is a set of triples, and query answers are inputs (`SetRow`, the uuid list).
- The duplicate and cycle checks, the authorisation and deletion modules, the users table, the preprocessor and the validator: their code is not part of this model, so they are oracles whose results are parameters.
- `getLoggedInTenant`, `set_time_limit`, and the DOM work in `relations.js` (title counters, cloning, showing and hiding): session state and presentation.
- Person.php and Api/SkosCollection.php: constructors and wiring only.
- `addRelation` and `_createRelationElement` in `relations.js`: DOM construction; only the insert rule of `_createRelationElementLinkOnly` is modelled.
- TripleStoreResource.DeleteChecks: `deleteResourceObject` catches only `ApiException`. The Solarium `InvalidArgumentException`s escape it: no tenant (412), missing uri (code 0), missing key (412) and the three user refusals (401). The `NotFoundException` (404) escapes too unless it derives from `ApiException`, and its class file is not part of this model. The model reports all of them as failed results with their codes; only the unknown tenant, the refusal and the deletion guard are answered by the source.
- ConceptApi.AddRelationTriple: the source resolves the tenant outside its `try`, so a tenant error escapes. The user lookup's 401 is a Solarium `InvalidArgumentException`, which `catch (ApiException $exc)` does not match, so it escapes too. The model reports both as failed results.
- ConceptApi.ConceptDeleteChecks: states the failures the evidently intended handler answers. As written, none is answered: every one escapes `delete` (see Findings, `ConceptApi.ConceptDeleteMissingIdEscapes`).
- ConceptApi.DeleteRelationTriple: as for `delete`, every failure escapes the handler as written; the model answers them (see Findings).
- ConceptApi.ConceptDeleteMarksDeleted: relies on the assumed effect of the manager's `deleteSoft`, whose code is not part of this model: only the status triple changes, to "deleted".
- ConceptApi.ConceptDeleteTwiceIsGone: relies on the same assumed effect of `deleteSoft`.
- ConceptApi.DeletedEdgeIsGone: relies on the assumed effect of the manager's `deleteRelationTriple`, whose code is not part of this model: exactly the edge triple is removed.
- ConceptApi.AddedEdgesAreAdmitted: "in the store afterwards" relies on the assumed effect of the manager's `addRelationTriple`: exactly the edge triple is added.
- TripleStoreResource.Create: the insert itself never fails in the model; an exception from the manager's `insert` is not modelled, nor a user without a foaf:Person.
- TripleStoreResource.Update: the replace itself never fails in the model. A code of 0 is passed to the response as it is; what the response class does with status 0 is not part of this model.
- ConceptApi.FieldsListToProperties: the exception class thrown for an unrecognised field is not part of this model; its code is taken as 0.
- ConceptApi.QueryWindow: takes the integer readings of `start` and `rows`. PHP's `(int)` cast of strings and its comparison of non-numeric strings with MAXIMAL_ROWS are not modelled.
- Tenants.TenantDeleteExactly: requires that the tenant is not its own organisation node; `Tenants.SelfOrganisationKeepsAddress` shows that the statement fails otherwise.
- TripleStoreResource.DecodeBody: namespace handling of `getElementsByTagNameNs` is abstracted; the document's Descriptions are given as a list. An empty body is taken as malformed (412), while in PHP 8 `loadXML('')` throws a `ValueError` that no handler catches.
- TripleStoreResource.CreateReportsCheckFailure: a `null` exception code is not modelled, since codes are integers.
- ConceptApi.PrepareSortField: strings are sequences of characters, while PHP's `strlen` and `substr` in the third-from-end test (`Php.SubstrOne`, `ConceptApi.ThirdFromEnd`) count bytes. The test agrees with PHP only when the term's last three characters are single-byte in UTF-8; for `titel_é` PHP reads the "_" and keeps the term, while the model reads "l" and gives `sort_s_titel_é`.
- EditorRelations.InsertLinkAsWritten: assumes that every inserted URI is shown in a headed concept link elsewhere on the page. Without such a link, the appended clone keeps the template's text instead of the URI (relations.js:271-278). A matching `.uri` outside any `li.concept-link` makes line 273 throw, and nothing is appended. The page's other links are not an input of the model.
- EditorRelations.RelationSchemes: models `_getRelationSchemes` as written, with the same substring `:contains` lookup; its contract states only duplicate-freedom.
- Resources keep their predicates in insertion order but the summary of `arrangeTripleStoreSets` is a map; the key order of the PHP array is not modelled.

## Findings

| source | as written | input that shows it | evidently intended | confidence | as-written member | corrected member |
|---|---|---|---|---|---|---|
| public/assets/scripts/editor/relations.js:268 | the existence test `.uri:contains(uri)` is a substring match on the listed URI texts | list ["http://x/10"], new URI "http://x/1": the URI is taken as present and never added | add the relation link unless that exact URI is already listed | medium, not executed | EditorRelations.InsertLinkAsWritten (counterexample EditorRelations.InsertLinkAsWrittenDropsPrefix) | EditorRelations.InsertLink (EditorRelations.InsertLinkIdempotent; also the step of EditorRelations.Unique) |
| library/OpenSkos2/Api/Concept.php:250-251 | `catch (Exception $e)` in namespace OpenSkos2\Api without `use Exception` names the class OpenSkos2\Api\Exception, which nothing thrown is an instance of; the handler it calls, `getErrorResponseFromException`, is defined neither in Concept nor in AbstractTripleStoreResource | a delete with a known tenant and no `id` parameter: the 412 exception leaves `delete` uncaught | catch every exception and answer with its code and message through `getErrorResponse` | high, not executed | ConceptApi.ConceptDeleteAsWritten (counterexample ConceptApi.ConceptDeleteMissingIdEscapes) | ConceptApi.ConceptDelete (ConceptApi.ConceptDeleteChecks, ConceptApi.ConceptDeleteTwiceIsGone) |
| library/OpenSkos2/Api/Concept.php:373-374 | the same `catch (Exception $e)` and undefined handler in `deleteRelationTriple` | a relation delete with a known tenant and a body without `key`: the 400 exception leaves the handler uncaught | catch every exception and answer with its code and message through `getErrorResponse` | high, not executed | ConceptApi.DeleteRelationTripleAsWritten (counterexample ConceptApi.DeleteRelationMissingKeyEscapes) | ConceptApi.DeleteRelationTriple (ConceptApi.DeletedEdgeIsGone) |

=== FILE: concept_api.dfy ===
/** The concept-specific part of the API: the soft delete, the relation-edge
    edits with their pre-checks, the sort-string parser of the search call and
    its field-name mapping, the fields-list resolver and the paging window.
 */
module ConceptApi {
  import opened Results
  import opened Rdf
  import Php
  import RelationIntegrity
  import opened TripleStoreResource

  // ---------------------------------------------------------------------
  // Soft delete
  // ---------------------------------------------------------------------

  /** The concept's status is "deleted". */
  predicate IsDeleted(store: set<Triple>, uri: Uri)
  {
    Triple(Iri(uri), OPENSKOS_STATUS, Lit(DELETED_STATUS)) in store
  }

  /** An authorisation answer whose boolean is discarded: only an exception
      stops the caller. */
  function AuthoriseByException(v: AuthVerdict): (c: Check)
    ensures c.Passed? <==> !v.Raises?
    ensures v.Raises? ==> c == Failed(v.error)
  {
    match v
    case Raises(e) => Failed(e)
    case _ => Passed
  }

  /** The checks of `delete`, in source order: id parameter, existence,
      not yet deleted, user, authorisation. */
  function ConceptDeleteChecks(m: Manager, store: set<Triple>, query: Params): (r: Result<Uri>)
    ensures r.Ok? ==> AskForUri(store, r.value) && !IsDeleted(store, r.value)
    ensures r.Ok? ==>
      && GetAndAdaptQueryParams(query, m.tenants).Ok?
      && var p := GetAndAdaptQueryParams(query, m.tenants).value;
      && GetUserFromParams(p, m.users).Ok?
      && !m.authorise(GetUserFromParams(p, m.users).value, p["tenantcode"], Stored(r.value), DeleteOp).Raises?
    ensures GetAndAdaptQueryParams(query, m.tenants).Ok? ==>
      var p := GetAndAdaptQueryParams(query, m.tenants).value;
      && ("id" !in p ==> r == Fail(Error(412, MissingParameter("id"))))
      && ("id" in p && !AskForUri(store, p["id"]) ==> r == Fail(Error(404, NotFound(p["id"]))))
      && ("id" in p && AskForUri(store, p["id"]) && IsDeleted(store, p["id"]) ==>
            r == Fail(Error(410, AlreadyDeleted(p["id"]))))
  {
    var params :- GetAndAdaptQueryParams(query, m.tenants);
    :- Need("id" in params, Error(412, MissingParameter("id")));
    var id := params["id"];
    :- Need(AskForUri(store, id), Error(404, NotFound(id)));
    :- Need(!IsDeleted(store, id), Error(410, AlreadyDeleted(id)));
    var user :- GetUserFromParams(params, m.users);
    :- AuthoriseByException(m.authorise(user, params["tenantcode"], Stored(id), DeleteOp));
    Ok(id)
  }

  /** `delete` of the concept API: the checks, then `deleteSoft`. */
  function ConceptDelete(m: Manager, store: set<Triple>, query: Params): (r: Run<Uri>)
    ensures r.write.Some? <==> r.result.Ok?
    ensures r.result.Ok? ==> r.write == Some(SoftDelete(r.result.value))
  {
    WriteIfPassed(ConceptDeleteChecks(m, store, query), (u: Uri) => SoftDelete(u))
  }

  /** A successful soft delete marks the concept deleted and leaves every
      triple other than its status untouched. */
  lemma ConceptDeleteMarksDeleted(m: Manager, store: set<Triple>, query: Params)
    requires ConceptDelete(m, store, query).result.Ok?
    ensures var id := ConceptDelete(m, store, query).result.value;
      var after := ApplyRun(m, store, ConceptDelete(m, store, query));
      && IsDeleted(after, id)
      && forall t: Triple :: t.s != Iri(id) || t.p != OPENSKOS_STATUS ==> (t in after <==> t in store)
  {
  }

  /** Deleting a deleted concept is a 410, so a repeated request changes nothing. */
  lemma ConceptDeleteTwiceIsGone(m: Manager, store: set<Triple>, query: Params)
    requires ConceptDelete(m, store, query).result.Ok?
    ensures var after := ApplyRun(m, store, ConceptDelete(m, store, query));
      var id := ConceptDelete(m, store, query).result.value;
      && ConceptDelete(m, after, query).result == Fail(Error(410, AlreadyDeleted(id)))
      && ConceptDelete(m, after, query).write.None?
  {
    var id := ConceptDelete(m, store, query).result.value;
    var after := ApplyRun(m, store, ConceptDelete(m, store, query));
    assert IsDeleted(after, id);
    assert AskForUri(after, id) by {
      assert Triple(Iri(id), OPENSKOS_STATUS, Lit(DELETED_STATUS)) in after;
    }
  }

  /** The authorisation module is asked before `deleteSoft`: an exception
      from it is the failure, and nothing is written. */
  lemma ConceptDeleteAuthRaises(m: Manager, store: set<Triple>, query: Params)
    requires GetAndAdaptQueryParams(query, m.tenants).Ok?
    requires var p := GetAndAdaptQueryParams(query, m.tenants).value;
      && "id" in p && AskForUri(store, p["id"]) && !IsDeleted(store, p["id"])
      && GetUserFromParams(p, m.users).Ok?
      && m.authorise(GetUserFromParams(p, m.users).value, p["tenantcode"], Stored(p["id"]), DeleteOp).Raises?
    ensures var p := GetAndAdaptQueryParams(query, m.tenants).value;
      var verdict := m.authorise(GetUserFromParams(p, m.users).value, p["tenantcode"], Stored(p["id"]), DeleteOp);
      && ConceptDelete(m, store, query).result == Fail(verdict.error)
      && ConceptDelete(m, store, query).write.None?
  {
  }

  /** Only an exception from the authorisation module stops the soft delete:
      with every earlier check passed, a `false` answer still deletes. */
  lemma ConceptDeleteIgnoresRefusal(m: Manager, store: set<Triple>, query: Params)
    requires GetAndAdaptQueryParams(query, m.tenants).Ok?
    requires var p := GetAndAdaptQueryParams(query, m.tenants).value;
      && "id" in p && AskForUri(store, p["id"]) && !IsDeleted(store, p["id"])
      && GetUserFromParams(p, m.users).Ok?
      && m.authorise(GetUserFromParams(p, m.users).value, p["tenantcode"], Stored(p["id"]), DeleteOp) == Refused
    ensures ConceptDelete(m, store, query).write.Some?
  {
  }

  /** A handler whose `catch` clause matches no exception: every failure
      escapes it. */
  function CatchingNothing<T>(r: Result<T>): (o: Outcome<T>)
    ensures o.Escaped? <==> r.Fail?
    ensures r.Fail? ==> o.error == r.error
    ensures r.Ok? ==> o == Responded(r)
  {
    match r
    case Ok(_) => Responded(r)
    case Fail(e) => Escaped(e)
  }

  /** `delete` as written. Its handler is `catch (Exception $e)` in namespace
      OpenSkos2\Api with no `use Exception`, so it names the class
      OpenSkos2\Api\Exception, of which nothing thrown here is an instance;
      the method it would call, `getErrorResponseFromException`, is defined
      neither in Concept nor in AbstractTripleStoreResource. */
  function ConceptDeleteAsWritten(m: Manager, store: set<Triple>, query: Params): (o: Outcome<Uri>)
    ensures o.Escaped? <==> ConceptDeleteChecks(m, store, query).Fail?
    ensures o.Responded? ==> o.result.Ok?
  {
    CatchingNothing(ConceptDelete(m, store, query).result)
  }

  /** A request without an id: `ConceptDelete` answers 412, while as written
      the exception leaves the handler uncaught; the same holds for every
      other failed check. */
  lemma ConceptDeleteMissingIdEscapes(m: Manager, store: set<Triple>, query: Params)
    requires GetAndAdaptQueryParams(query, m.tenants).Ok?
    requires "id" !in GetAndAdaptQueryParams(query, m.tenants).value
    ensures ConceptDelete(m, store, query).result == Fail(Error(412, MissingParameter("id")))
    ensures ConceptDeleteAsWritten(m, store, query) == Escaped(Error(412, MissingParameter("id")))
    ensures forall e :: ConceptDelete(m, store, query).result == Fail(e) <==>
      ConceptDeleteAsWritten(m, store, query) == Escaped(e)
  {
  }

  // ---------------------------------------------------------------------
  // Relation edges
  // ---------------------------------------------------------------------

  /** The fields of a relation-edit request body. */
  datatype RelationEdit = RelationEdit(key: string, concept: Uri, related: Uri, relation: Uri)

  function Edge(e: RelationEdit): Triple
  {
    Triple(Iri(e.concept), e.relation, Iri(e.related))
  }

  datatype EditRun = EditRun(outcome: Result<RelationEdit>, queries: seq<RelationIntegrity.RelationQuery>)

  /** The body field is present (PHP `isset`). */
  function BodyField(body: map<string, string>, name: string): (r: Result<string>)
    ensures r.Ok? <==> name in body
    ensures r.Ok? ==> r.value == body[name]
    ensures r.Fail? ==> r.error == Error(400, MissingBodyField(name))
  {
    if name in body then Ok(body[name]) else Fail(Error(400, MissingBodyField(name)))
  }

  /** The checks that need no oracle: fields, endpoints, relation type. */
  function EditRequest(env: RelationIntegrity.RelationEnv, store: set<Triple>, body: map<string, string>): (r: Result<RelationEdit>)
    ensures r.Ok? <==>
      && "key" in body && "concept" in body && "related" in body && "type" in body
      && RelationIntegrity.ConceptExists(store, Iri(body["concept"]))
      && RelationIntegrity.ConceptExists(store, Iri(body["related"]))
      && RelationIntegrity.IsRelation(env, body["type"])
      && !RelationIntegrity.Unregistered(env, body["type"])
    ensures r.Ok? ==> r.value == RelationEdit(body["key"], body["concept"], body["related"], body["type"])
    ensures "key" !in body ==> r == Fail(Error(400, MissingBodyField("key")))
    ensures "key" in body && "concept" !in body ==> r == Fail(Error(400, MissingBodyField("concept")))
    ensures "key" in body && "concept" in body && "related" !in body ==>
      r == Fail(Error(400, MissingBodyField("related")))
    ensures "key" in body && "concept" in body && "related" in body && "type" !in body ==>
      r == Fail(Error(400, MissingBodyField("type")))
    ensures "key" in body && "concept" in body && "related" in body && "type" in body ==>
      var c, o, t := body["concept"], body["related"], body["type"];
      && (!RelationIntegrity.ConceptExists(store, Iri(c)) ==> r == Fail(Error(400, MissingConcept(c))))
      && (RelationIntegrity.ConceptExists(store, Iri(c)) && !RelationIntegrity.ConceptExists(store, Iri(o)) ==>
            r == Fail(Error(400, MissingConcept(o))))
      && (RelationIntegrity.ConceptExists(store, Iri(c)) && RelationIntegrity.ConceptExists(store, Iri(o)) ==>
            && (!RelationIntegrity.IsRelation(env, t) ==> r == Fail(Error(400, NotARelation(t))))
            && (RelationIntegrity.IsRelation(env, t) && RelationIntegrity.Unregistered(env, t) ==>
                  r == Fail(Error(400, UnregisteredRelation(t)))))
    ensures r.Fail? ==> r.error.code == 400
  {
    var key :- BodyField(body, "key");
    var concept :- BodyField(body, "concept");
    var related :- BodyField(body, "related");
    var relation :- BodyField(body, "type");
    :- Need(RelationIntegrity.ConceptExists(store, Iri(concept)), Error(400, MissingConcept(concept)));
    :- Need(RelationIntegrity.ConceptExists(store, Iri(related)), Error(400, MissingConcept(related)));
    :- Need(RelationIntegrity.IsRelation(env, relation), Error(400, NotARelation(relation)));
    :- Need(!RelationIntegrity.Unregistered(env, relation), Error(400, UnregisteredRelation(relation)));
    Ok(RelationEdit(key, concept, related, relation))
  }

  /** The duplicate and cycle oracles, consulted only when an edge is added. */
  function EdgeOracles(env: RelationIntegrity.RelationEnv, e: RelationEdit, toBeDeleted: bool): (r: EditRun)
    ensures toBeDeleted ==> r == EditRun(Ok(e), [])
    ensures r.outcome.Ok? ==> r.outcome.value == e
    ensures r.outcome.Ok? && !toBeDeleted ==>
      && env.duplicated(Iri(e.concept), Iri(e.related), e.relation).Passed?
      && env.createsCycle(Iri(e.concept), Iri(e.related), e.relation).Passed?
      && RelationIntegrity.BothQueried(r.queries, Iri(e.concept), e.relation, Iri(e.related))
    ensures forall q :: q in r.queries ==>
      && q.s == Iri(e.concept) && q.o == Iri(e.related) && q.p == e.relation
      && (q.kind == RelationIntegrity.Cycle ==> env.duplicated(q.s, q.o, q.p).Passed?)
  {
    if toBeDeleted then EditRun(Ok(e), [])
    else
      var s, o := Iri(e.concept), Iri(e.related);
      var dup := RelationIntegrity.RelationQuery(RelationIntegrity.Duplicate, s, o, e.relation);
      var cyc := RelationIntegrity.RelationQuery(RelationIntegrity.Cycle, s, o, e.relation);
      match env.duplicated(s, o, e.relation)
      case Failed(err) => EditRun(Fail(err), [dup])
      case Passed =>
        match env.createsCycle(s, o, e.relation)
        case Failed(err) => EditRun(Fail(err), [dup, cyc])
        case Passed => EditRun(Ok(e), [dup, cyc])
  }

  /** `preEditChecksRels`: body fields, endpoints, relation type, the oracles
      when adding, the user by the body's key, then edit authorisation on the
      concept and on the related concept. */
  function PreEditChecksRels(m: Manager, env: RelationIntegrity.RelationEnv, store: set<Triple>,
                             params: Params, body: map<string, string>, toBeDeleted: bool): (r: EditRun)
    requires Adapted(params)
    ensures toBeDeleted ==> r.queries == []
    ensures forall q :: q in r.queries ==>
      EditRequest(env, store, body).Ok? && RelationIntegrity.QueryJustified(env, store, Iri(body["concept"]), q)
    ensures r.outcome.Ok? ==> EditRequest(env, store, body) == Ok(r.outcome.value)
    ensures r.outcome.Ok? && !toBeDeleted ==>
      RelationIntegrity.TargetAdmissible(env, store, Iri(body["concept"]), body["type"], Iri(body["related"]))
    ensures r.outcome.Ok? ==>
      && GetUserByKey(m.users, body["key"]).Ok?
      && var user := GetUserByKey(m.users, body["key"]).value;
      && !m.authorise(user, params["tenantcode"], Stored(body["concept"]), EditOp).Raises?
      && !m.authorise(user, params["tenantcode"], Stored(body["related"]), EditOp).Raises?
  {
    match EditRequest(env, store, body)
    case Fail(err) => EditRun(Fail(err), [])
    case Ok(e) =>
      var oracles := EdgeOracles(env, e, toBeDeleted);
      var checked :=
        var _ :- oracles.outcome;
        var user :- GetUserByKey(m.users, e.key);
        :- AuthoriseByException(m.authorise(user, params["tenantcode"], Stored(e.concept), EditOp));
        :- AuthoriseByException(m.authorise(user, params["tenantcode"], Stored(e.related), EditOp));
        Ok(e);
      EditRun(checked, oracles.queries)
  }

  /** `addRelationTriple`: tenant, pre-checks for an addition, then the edge is written. */
  function AddRelationTriple(m: Manager, env: RelationIntegrity.RelationEnv, store: set<Triple>,
                             query: Params, body: map<string, string>): (r: Run<RelationEdit>)
    ensures r.write.Some? <==> r.result.Ok?
    ensures r.result.Ok? ==> r.write == Some(AddTriple(Edge(r.result.value)))
  {
    var checked :=
      var params :- GetAndAdaptQueryParams(query, m.tenants);
      PreEditChecksRels(m, env, store, params, body, false).outcome;
    WriteIfPassed(checked, (e: RelationEdit) => AddTriple(Edge(e)))
  }

  /** `deleteRelationTriple`: the same pre-checks without the oracles, then
      the edge is removed. */
  function DeleteRelationTriple(m: Manager, env: RelationIntegrity.RelationEnv, store: set<Triple>,
                                query: Params, body: map<string, string>): (r: Run<RelationEdit>)
    ensures r.write.Some? <==> r.result.Ok?
    ensures r.result.Ok? ==> r.write == Some(RemoveTriple(Edge(r.result.value)))
  {
    var checked :=
      var params :- GetAndAdaptQueryParams(query, m.tenants);
      PreEditChecksRels(m, env, store, params, body, true).outcome;
    WriteIfPassed(checked, (e: RelationEdit) => RemoveTriple(Edge(e)))
  }

  /** `deleteRelationTriple` as written: the same `catch (Exception $e)` and
      undefined handler as `delete`, so no failure is answered. */
  function DeleteRelationTripleAsWritten(m: Manager, env: RelationIntegrity.RelationEnv, store: set<Triple>,
                                         query: Params, body: map<string, string>): (o: Outcome<RelationEdit>)
    ensures o.Escaped? <==> DeleteRelationTriple(m, env, store, query, body).write.None?
    ensures o.Responded? ==> o.result.Ok?
  {
    CatchingNothing(DeleteRelationTriple(m, env, store, query, body).result)
  }

  /** A body without a key: `DeleteRelationTriple` answers 400, while as
      written the exception leaves the handler uncaught. */
  lemma DeleteRelationMissingKeyEscapes(m: Manager, env: RelationIntegrity.RelationEnv, store: set<Triple>,
                                        query: Params, body: map<string, string>)
    requires GetAndAdaptQueryParams(query, m.tenants).Ok?
    requires "key" !in body
    ensures DeleteRelationTriple(m, env, store, query, body).result == Fail(Error(400, MissingBodyField("key")))
    ensures DeleteRelationTripleAsWritten(m, env, store, query, body) == Escaped(Error(400, MissingBodyField("key")))
  {
  }

  /** An added edge joins two stored concepts by a registered relation that
      neither oracle objected to, and is present afterwards. */
  lemma AddedEdgesAreAdmitted(m: Manager, env: RelationIntegrity.RelationEnv, store: set<Triple>,
                              query: Params, body: map<string, string>)
    requires AddRelationTriple(m, env, store, query, body).result.Ok?
    ensures var e := AddRelationTriple(m, env, store, query, body).result.value;
      && RelationIntegrity.ConceptExists(store, Iri(e.concept))
      && RelationIntegrity.IsRelation(env, e.relation)
      && !RelationIntegrity.Unregistered(env, e.relation)
      && RelationIntegrity.TargetAdmissible(env, store, Iri(e.concept), e.relation, Iri(e.related))
      && Edge(e) in ApplyRun(m, store, AddRelationTriple(m, env, store, query, body))
  {
  }

  /** A removed edge is absent afterwards, and no other triple changed. */
  lemma DeletedEdgeIsGone(m: Manager, env: RelationIntegrity.RelationEnv, store: set<Triple>,
                          query: Params, body: map<string, string>)
    requires DeleteRelationTriple(m, env, store, query, body).result.Ok?
    ensures var e := DeleteRelationTriple(m, env, store, query, body).result.value;
      var after := ApplyRun(m, store, DeleteRelationTriple(m, env, store, query, body));
      && Edge(e) !in after
      && forall t :: t != Edge(e) ==> (t in after <==> t in store)
  {
  }

  // ---------------------------------------------------------------------
  // Sorting
  // ---------------------------------------------------------------------

  predicate IsOrder(t: string)
  {
    t == "asc" || t == "desc"
  }

  /** `isDateField`. */
  predicate IsDateField(t: string)
  {
    t == "dateAccepted" || t == "dateSubmitted" || t == "modified"
  }

  /** Already an index sort field: starts with "sort_", or the one-character
      `substr` at three from the end is "_" (a language suffix such as "_nl"). */
  predicate IsInternalSortField(t: string)
  {
    Php.HasPrefix(t, "sort_") || Php.SubstrOne(t, |t| - 3) == "_"
  }

  /** What the third-from-end test really reads: for strings shorter than
      three characters PHP's negative start makes it read the last or the
      only character. */
  lemma ThirdFromEnd(t: string)
    ensures Php.SubstrOne(t, |t| - 3) == "_" <==>
      || (|t| >= 3 && t[|t| - 3] == '_')
      || (|t| == 2 && t[1] == '_')
      || (|t| == 1 && t[0] == '_')
  {
  }

  /** `prepareSortFieldForSolr`. */
  function PrepareSortField(t: string): (r: string)
    ensures IsInternalSortField(t) ==> r == t
    ensures !IsInternalSortField(t) ==>
      if IsDateField(t) then r == "sort_d_" + t
      else if '@' in t then |r| == |t| && forall i :: 0 <= i < |t| ==> r[i] == (if t[i] == '@' then '_' else t[i])
      else r == "sort_s_" + t
  {
    if IsInternalSortField(t) then t
    else if IsDateField(t) then "sort_d_" + t
    else if '@' in t then Php.ReplaceChar(t, '@', '_')
    else "sort_s_" + t
  }

  lemma PrefixedIsInternal(pre: string, t: string)
    requires Php.HasPrefix(pre, "sort_")
    ensures IsInternalSortField(pre + t)
  {
    assert (pre + t)[..5] == pre[..5];
  }

  /** The mapping yields an index sort field, and so is idempotent, unless
      the term carries an "@" that is not a two-letter language tag. */
  lemma PrepareSortFieldIdempotent(t: string)
    requires '@' !in t || (|t| >= 3 && t[|t| - 3] == '@')
    ensures IsInternalSortField(PrepareSortField(t))
    ensures PrepareSortField(PrepareSortField(t)) == PrepareSortField(t)
  {
    var r := PrepareSortField(t);
    if !IsInternalSortField(t) {
      if IsDateField(t) {
        PrefixedIsInternal("sort_d_", t);
      } else if '@' in t {
        ThirdFromEnd(r);
      } else {
        PrefixedIsInternal("sort_s_", t);
      }
    }
  }

  /** A "@" that is not at the language-tag position is not idempotent:
      "a@b" maps to "a_b", which then maps to "sort_s_a_b". */
  lemma PrepareSortFieldNotIdempotent()
    ensures PrepareSortField("a@b") == "a_b"
    ensures PrepareSortField("a_b") == "sort_s_a_b"
  {
    assert !Php.HasPrefix("a@b", "sort_");
    assert !Php.HasPrefix("a_b", "sort_");
    assert '@' in "a@b";
    assert '@' !in "a_b";
    assert Php.ReplaceChar("a@b", '@', '_') == "a_b";
  }

  /** A raw field token and the order it is given. */
  datatype SortPair = SortPair(field: string, order: string)

  /** The token walk of `prepareSortsForSolr`: a token in field position is
      paired with the next token when that is "asc" or "desc", and with
      "asc" otherwise; a lone trailing order token is dropped. */
  function SortPairs(toks: seq<string>): (ps: seq<SortPair>)
    ensures forall i :: 0 <= i < |ps| ==> IsOrder(ps[i].order)
    ensures |ps| <= |toks|
  {
    if |toks| == 0 then []
    else if |toks| == 1 then (if IsOrder(toks[0]) then [] else [SortPair(toks[0], "asc")])
    else if IsOrder(toks[1]) then [SortPair(toks[0], toks[1])] + SortPairs(toks[2..])
    else [SortPair(toks[0], "asc")] + SortPairs(toks[1..])
  }

  /** Every field of a pair is one of the tokens. */
  lemma {:induction false} SortPairsFieldsAreTokens(toks: seq<string>)
    ensures forall k :: 0 <= k < |SortPairs(toks)| ==> SortPairs(toks)[k].field in toks
  {
    if |toks| >= 2 {
      var n := if IsOrder(toks[1]) then 2 else 1;
      var rest := toks[n..];
      var ps, tail := SortPairs(toks), SortPairs(rest);
      SortPairsFieldsAreTokens(rest);
      assert ps == [SortPair(toks[0], if n == 2 then toks[1] else "asc")] + tail;
      forall k | 0 <= k < |ps|
        ensures ps[k].field in toks
      {
        if k > 0 {
          assert ps[k] == tail[k - 1];
          assert tail[k - 1].field in rest;
        }
      }
    }
  }

  /** The order a field token at `i` is given: the next token when that is
      "asc" or "desc", otherwise the default "asc". */
  function OrderAfter(toks: seq<string>, i: int): string
  {
    if 0 <= i && i + 1 < |toks| && IsOrder(toks[i + 1]) then toks[i + 1] else "asc"
  }

  /** No token other than "asc" and "desc" is lost: each becomes the field
      of a pair, with the order that follows it or the default "asc". */
  lemma {:induction false} SortPairsKeepsField(toks: seq<string>, i: int)
    requires 0 <= i < |toks| && !IsOrder(toks[i])
    ensures exists k :: 0 <= k < |SortPairs(toks)| && SortPairs(toks)[k] == SortPair(toks[i], OrderAfter(toks, i))
    decreases |toks|
  {
    if i == 0 {
      assert SortPairs(toks)[0] == SortPair(toks[0], OrderAfter(toks, 0));
    } else {
      var n := if IsOrder(toks[1]) then 2 else 1;
      var rest := toks[n..];
      var tail := SortPairs(rest);
      assert SortPairs(toks) == [SortPair(toks[0], if n == 2 then toks[1] else "asc")] + tail;
      assert rest[i - n] == toks[i];
      assert OrderAfter(rest, i - n) == OrderAfter(toks, i);
      SortPairsKeepsField(rest, i - n);
      var k :| 0 <= k < |tail| && tail[k] == SortPair(rest[i - n], OrderAfter(rest, i - n));
      assert SortPairs(toks)[k + 1] == SortPair(toks[i], OrderAfter(toks, i));
    }
  }

  /** A field token not followed by "asc" or "desc", wherever it stands,
      is paired with the default "asc"; the first token's pair comes first. */
  lemma SortPairsDefaultAsc(toks: seq<string>, i: int)
    requires 0 <= i < |toks| && !IsOrder(toks[i]) && (i + 1 == |toks| || !IsOrder(toks[i + 1]))
    ensures exists k :: 0 <= k < |SortPairs(toks)| && SortPairs(toks)[k] == SortPair(toks[i], "asc")
    ensures i == 0 ==> SortPairs(toks)[0] == SortPair(toks[0], "asc")
  {
    SortPairsKeepsField(toks, i);
  }

  /** Writes pairs back as tokens, each field followed by its order. */
  function RenderSorts(ps: seq<SortPair>): seq<string>
  {
    if |ps| == 0 then [] else [ps[0].field, ps[0].order] + RenderSorts(ps[1..])
  }

  /** Parsing undoes rendering whenever every order is "asc" or "desc". */
  lemma {:induction false} SortPairsRender(ps: seq<SortPair>)
    requires forall i :: 0 <= i < |ps| ==> IsOrder(ps[i].order)
    ensures SortPairs(RenderSorts(ps)) == ps
  {
    if |ps| > 0 {
      var toks := RenderSorts(ps);
      assert toks[2..] == RenderSorts(ps[1..]);
      SortPairsRender(ps[1..]);
    }
  }

  /** The sort map: a PHP array from index field to order, in insertion order. */
  datatype SortKey = SortKey(field: string, order: string)

  type SortMap = seq<SortKey>

  function Lookup(m: SortMap, f: string): Option<string>
  {
    if |m| == 0 then None
    else if m[0].field == f then Some(m[0].order)
    else Lookup(m[1..], f)
  }

  /** `$map[$f] = $o`: overwrites in place, or appends a new key. */
  function Assign(m: SortMap, f: string, o: string): (r: SortMap)
    ensures forall g :: Lookup(r, g) == if g == f then Some(o) else Lookup(m, g)
    ensures |r| == |m| || |r| == |m| + 1
  {
    if |m| == 0 then [SortKey(f, o)]
    else if m[0].field == f then [SortKey(f, o)] + m[1..]
    else [m[0]] + Assign(m[1..], f, o)
  }

  function FoldSorts(m: SortMap, ps: seq<SortPair>): SortMap
    decreases |ps|
  {
    if |ps| == 0 then m
    else FoldSorts(Assign(m, PrepareSortField(ps[0].field), ps[0].order), ps[1..])
  }

  /** `ps[i]` is the last pair whose field maps to `f`. */
  predicate LastFor(ps: seq<SortPair>, f: string, i: int)
  {
    && 0 <= i < |ps|
    && PrepareSortField(ps[i].field) == f
    && forall j :: i < j < |ps| ==> PrepareSortField(ps[j].field) != f
  }

  predicate NoneFor(ps: seq<SortPair>, f: string)
  {
    forall j :: 0 <= j < |ps| ==> PrepareSortField(ps[j].field) != f
  }

  /** A later pair for the same field overwrites an earlier one. */
  lemma {:induction false} LastWriteWins(m: SortMap, ps: seq<SortPair>, f: string, i: int)
    requires LastFor(ps, f, i)
    ensures Lookup(FoldSorts(m, ps), f) == Some(ps[i].order)
    decreases |ps|
  {
    var m' := Assign(m, PrepareSortField(ps[0].field), ps[0].order);
    if i == 0 {
      assert NoneFor(ps[1..], f);
      UntouchedKeepsValue(m', ps[1..], f);
    } else {
      assert LastFor(ps[1..], f, i - 1);
      LastWriteWins(m', ps[1..], f, i - 1);
    }
  }

  /** A field no pair maps to keeps its value. */
  lemma {:induction false} UntouchedKeepsValue(m: SortMap, ps: seq<SortPair>, f: string)
    requires NoneFor(ps, f)
    ensures Lookup(FoldSorts(m, ps), f) == Lookup(m, f)
    decreases |ps|
  {
    if |ps| > 0 {
      var m' := Assign(m, PrepareSortField(ps[0].field), ps[0].order);
      assert NoneFor(ps[1..], f);
      UntouchedKeepsValue(m', ps[1..], f);
    }
  }

  /** `prepareSortsForSolr`: split on single spaces, pair, map and fold. */
  function PrepareSorts(s: string): SortMap
  {
    FoldSorts([], SortPairs(Php.Explode(' ', s)))
  }

  /** The source's while loop over the token list, step for step. */
  method PrepareSortsLoop(s: string) returns (m: SortMap)
    ensures m == PrepareSorts(s)
  {
    var toks := Php.Explode(' ', s);
    var l := |toks|;
    m := [];
    var i := 0;
    while i < l - 1
      invariant 0 <= i <= l
      invariant i == l ==> IsOrder(toks[l - 1])
      invariant FoldSorts(m, SortPairs(toks[i..])) == PrepareSorts(s)
    {
      var j := i;
      i := i + 1;
      var field := PrepareSortField(toks[j]);
      var order := "asc";
      assert toks[j..][1..] == toks[i..];
      if IsOrder(toks[i]) {
        order := toks[i];
        i := i + 1;
        assert toks[j..][2..] == toks[i..];
      }
      m := Assign(m, field, order);
    }
    if !IsOrder(toks[l - 1]) {
      assert toks[i..] == [toks[l - 1]];
      m := Assign(m, PrepareSortField(toks[l - 1]), "asc");
    } else if i < l {
      assert toks[i..] == [toks[l - 1]];
    }
  }

  // ---------------------------------------------------------------------
  // Fields list and paging
  // ---------------------------------------------------------------------

  /** The `fl` parameter: already an array, or a comma-separated string. */
  datatype FieldsList = FieldArray(items: seq<string>) | FieldString(text: string)

  /** The field-name map and the namespace expansion the resolver consults,
      and PHP's URL validation filter. */
  datatype FieldResolver = FieldResolver(names: map<string, Uri>, expand: string -> Uri, isUrl: string -> bool)

  function TrimAll(parts: seq<string>): (r: seq<string>)
    ensures |r| == |parts|
    ensures forall i :: 0 <= i < |parts| ==> r[i] == Php.Trim(parts[i], Php.IsTrimmed)
  {
    if |parts| == 0 then [] else [Php.Trim(parts[0], Php.IsTrimmed)] + TrimAll(parts[1..])
  }

  /** The field names a fields list stands for. */
  function FieldNames(l: FieldsList): seq<string>
  {
    match l
    case FieldArray(items) => items
    case FieldString(text) => TrimAll(Php.Explode(',', text))
  }

  function ResolveField(res: FieldResolver, f: string): Uri
  {
    if f in res.names then res.names[f] else res.expand(f)
  }

  /** The first loop: empty names skipped, the rest resolved in order. */
  function ResolveFields(res: FieldResolver, fields: seq<string>): (r: seq<Uri>)
    ensures |r| <= |fields|
    ensures forall u :: u in r <==> exists f :: f in fields && !Php.IsEmptyString(f) && ResolveField(res, f) == u
  {
    if |fields| == 0 then []
    else
      var rest := ResolveFields(res, fields[1..]);
      assert forall f :: f in fields <==> f == fields[0] || f in fields[1..];
      if Php.IsEmptyString(fields[0]) then rest else [ResolveField(res, fields[0])] + rest
  }

  predicate Recognised(res: FieldResolver, u: Uri)
  {
    u == "uri" || res.isUrl(u)
  }

  /** `props[i]` is the first property that is not recognised. */
  predicate FirstBad(res: FieldResolver, props: seq<Uri>, i: int)
  {
    && 0 <= i < |props|
    && !Recognised(res, props[i])
    && forall j :: 0 <= j < i ==> Recognised(res, props[j])
  }

  /** The second loop: the first resolved property that is neither "uri" nor a URL. */
  function FirstUnrecognised(res: FieldResolver, props: seq<Uri>): (r: Option<Uri>)
    ensures r.None? <==> forall i :: 0 <= i < |props| ==> Recognised(res, props[i])
    ensures r.Some? ==> !Recognised(res, r.value) && exists i :: FirstBad(res, props, i) && props[i] == r.value
  {
    if |props| == 0 then None
    else if !Recognised(res, props[0]) then Some(props[0])
    else
      var r := FirstUnrecognised(res, props[1..]);
      assert forall i :: 1 <= i < |props| ==> props[i] == props[1..][i - 1];
      if r.Some? then
        var k :| FirstBad(res, props[1..], k) && props[1..][k] == r.value;
        assert FirstBad(res, props, k + 1);
        r
      else r
  }

  /** `fieldsListToProperties`. */
  function FieldsListToProperties(res: FieldResolver, l: FieldsList): (r: Result<seq<Uri>>)
    ensures r.Ok? <==> forall u :: u in ResolveFields(res, FieldNames(l)) ==> Recognised(res, u)
    ensures r.Ok? ==> r.value == ResolveFields(res, FieldNames(l))
    ensures r.Fail? ==> r.error.reason.UnrecognisedField? && !Recognised(res, r.error.reason.field)
  {
    var props := ResolveFields(res, FieldNames(l));
    match FirstUnrecognised(res, props)
    case Some(u) => Fail(Error(0, UnrecognisedField(u)))
    case None => Ok(props)
  }

  /** Every property returned comes from a non-empty name of the list, and
      every non-empty name contributes one. */
  lemma FieldsListMembership(res: FieldResolver, l: FieldsList, u: Uri)
    requires FieldsListToProperties(res, l).Ok?
    ensures u in FieldsListToProperties(res, l).value <==>
      exists f :: f in FieldNames(l) && !Php.IsEmptyString(f) && ResolveField(res, f) == u
  {
  }

  /** A string list is read as one name per comma-separated part, with the
      commas and the white space around each name removed. */
  lemma FieldStringSplit(text: string)
    ensures |FieldNames(FieldString(text))| == |Php.Explode(',', text)|
    ensures forall i :: 0 <= i < |FieldNames(FieldString(text))| ==>
      var name := FieldNames(FieldString(text))[i];
      && ',' !in name
      && (|name| > 0 ==> !Php.IsTrimmed(name[0]) && !Php.IsTrimmed(name[|name| - 1]))
  {
    var parts := Php.Explode(',', text);
    var names := FieldNames(FieldString(text));
    forall i | 0 <= i < |names|
      ensures ',' !in names[i]
    {
      Php.TrimKeepsMiddle(parts[i], Php.IsTrimmed);
      var k :| Php.StrippedAround(parts[i], names[i], k, Php.IsTrimmed);
      assert ',' !in parts[i];
    }
  }

  datatype Window = Window(start: int, limit: int)

  function Min(a: int, b: int): int
  {
    if a <= b then a else b
  }

  /** The paging window of `findConcepts`; `start` and `rows` are the
      integer readings of the parameters, absent when unset (and, for
      `start`, when PHP-empty). */
  function QueryWindow(start: Option<int>, rows: Option<int>, maxRows: int): (w: Window)
    ensures w.limit <= maxRows
    ensures rows.Some? ==> w.limit == Min(rows.value, maxRows)
    ensures rows.None? ==> w.limit == maxRows
    ensures w.start == if start.Some? then start.value else 0
  {
    var s := if start.Some? then start.value else 0;
    var limit := if rows.Some? && rows.value < maxRows then rows.value else maxRows;
    Window(s, limit)
  }
}

=== FILE: editor_relations.dfy ===
/** The relation decisions of the concept editor: whether the concepts picked
    in the editor may be linked to the current concept with a given relation,
    and the list insert that adds a relation link. The page is abstracted as
    the list of concept links it shows, each with its URI text and the
    classes of its scheme markers.
 */
module EditorRelations {
  import opened Results
  import Php
  import SkosVocabulary

  const SEMANTIC: seq<string> := ["broader", "narrower", "related"]
  const MAPPING: seq<string> := ["exactMatch", "closeMatch", "broadMatch", "narrowMatch", "relatedMatch"]

  /** The editor's semantic list holds the local names of the SKOS semantic
      relations it offers. */
  lemma SemanticListIsSkos()
    ensures SEMANTIC == [SkosVocabulary.LocalName(SkosVocabulary.Broader),
                         SkosVocabulary.LocalName(SkosVocabulary.Narrower),
                         SkosVocabulary.LocalName(SkosVocabulary.Related)]
    ensures forall x :: x in SEMANTIC ==>
      exists p :: SkosVocabulary.LocalName(p) == x && SkosVocabulary.ClassOf(p) == SkosVocabulary.SemanticRelations
  {
    assert SkosVocabulary.LocalName(SkosVocabulary.Broader) == SEMANTIC[0];
    assert SkosVocabulary.LocalName(SkosVocabulary.Narrower) == SEMANTIC[1];
    assert SkosVocabulary.LocalName(SkosVocabulary.Related) == SEMANTIC[2];
  }

  /** The editor's mapping list holds the local names of the SKOS mapping
      properties it offers. */
  lemma MappingListIsSkos()
    ensures MAPPING == [SkosVocabulary.LocalName(SkosVocabulary.ExactMatch),
                        SkosVocabulary.LocalName(SkosVocabulary.CloseMatch),
                        SkosVocabulary.LocalName(SkosVocabulary.BroadMatch),
                        SkosVocabulary.LocalName(SkosVocabulary.NarrowMatch),
                        SkosVocabulary.LocalName(SkosVocabulary.RelatedMatch)]
    ensures forall x :: x in MAPPING ==>
      exists p :: SkosVocabulary.LocalName(p) == x && SkosVocabulary.ClassOf(p) == SkosVocabulary.MappingProperties
  {
    assert SkosVocabulary.LocalName(SkosVocabulary.ExactMatch) == MAPPING[0];
    assert SkosVocabulary.LocalName(SkosVocabulary.CloseMatch) == MAPPING[1];
    assert SkosVocabulary.LocalName(SkosVocabulary.BroadMatch) == MAPPING[2];
    assert SkosVocabulary.LocalName(SkosVocabulary.NarrowMatch) == MAPPING[3];
    assert SkosVocabulary.LocalName(SkosVocabulary.RelatedMatch) == MAPPING[4];
  }

  /** No relation is both semantic and a mapping. */
  lemma SemanticAndMappingDisjoint(x: string)
    ensures !(x in SEMANTIC && x in MAPPING)
  {
  }

  /** `hasSchemesMatch`: some scheme of the second list is in the first. */
  function HasSchemesMatch(schemes1: seq<string>, schemes2: seq<string>): (r: bool)
    ensures r <==> exists j :: 0 <= j < |schemes2| && schemes2[j] in schemes1
  {
    if |schemes2| == 0 then false
    else if schemes2[0] in schemes1 then true
    else
      var rest := HasSchemesMatch(schemes1, schemes2[1..]);
      assert forall j :: 1 <= j < |schemes2| ==> schemes2[j] == schemes2[1..][j - 1];
      rest
  }

  predicate NoDup(s: seq<string>)
  {
    forall i, j :: 0 <= i < j < |s| ==> s[i] != s[j]
  }

  /** Appends `x` unless it is already listed. */
  function InsertLink(list: seq<string>, x: string): (r: seq<string>)
    ensures x in r
    ensures forall y :: y in r <==> y in list || y == x
    ensures NoDup(list) ==> NoDup(r)
    ensures x in list ==> r == list
  {
    if x in list then list else list + [x]
  }

  lemma InsertLinkIdempotent(list: seq<string>, x: string)
    ensures InsertLink(InsertLink(list, x), x) == InsertLink(list, x)
  {
  }

  /** MooTools `unique`: the first occurrence of every element, in order. */
  function Unique(s: seq<string>): (r: seq<string>)
    ensures NoDup(r)
    ensures forall y :: y in r <==> y in s
    ensures |r| <= |s|
  {
    if |s| == 0 then [] else InsertLink(Unique(s[..|s| - 1]), s[|s| - 1])
  }

  /** A list without duplicates is its own unique list, so `unique` is idempotent. */
  lemma {:induction false} UniqueOfNoDup(s: seq<string>)
    requires NoDup(s)
    ensures Unique(s) == s
  {
    if |s| > 0 {
      var front := s[..|s| - 1];
      assert NoDup(front);
      UniqueOfNoDup(front);
      assert s[|s| - 1] !in front;
      assert front + [s[|s| - 1]] == s;
    }
  }

  lemma UniqueIdempotent(s: seq<string>)
    ensures Unique(Unique(s)) == Unique(s)
  {
    UniqueOfNoDup(Unique(s));
  }

  /** One concept link of the page: its URI text and scheme-marker classes. */
  datatype ConceptLink = ConceptLink(uri: string, schemes: seq<string>)

  function Flatten(ss: seq<seq<string>>): seq<string>
  {
    if |ss| == 0 then [] else ss[0] + Flatten(ss[1..])
  }

  function MatchingSchemes(links: seq<ConceptLink>, uri: string): seq<seq<string>>
  {
    if |links| == 0 then []
    else if Php.ContainsText(links[0].uri, uri) then [links[0].schemes] + MatchingSchemes(links[1..], uri)
    else MatchingSchemes(links[1..], uri)
  }

  /** `_getRelationSchemes`: the schemes shown on every link whose URI text
      contains `uri`, without duplicates. */
  function RelationSchemes(links: seq<ConceptLink>, uri: string): (r: seq<string>)
    ensures NoDup(r)
  {
    Unique(Flatten(MatchingSchemes(links, uri)))
  }

  /** Whether a picked concept shares a scheme with the current concept. */
  function Matches(current: seq<string>, links: seq<ConceptLink>, uri: string): bool
  {
    HasSchemesMatch(current, RelationSchemes(links, uri))
  }

  /** The result of `checkConceptsRelationPosibilityWithCurrent`;
      `shareScheme` is None for JavaScript's null. */
  datatype Possibility = Possibility(shareScheme: Option<bool>, consistent: bool)

  /** All picked concepts agree on sharing a scheme. */
  predicate Consistent(current: seq<string>, links: seq<ConceptLink>, uris: seq<string>)
  {
    forall i :: 0 <= i < |uris| ==> Matches(current, links, uris[i]) == Matches(current, links, uris[0])
  }

  /** `checkConceptsRelationPosibilityWithCurrent`: the loop stops at the
      first concept that disagrees with the ones before it. */
  method CheckPossibility(uris: seq<string>, current: seq<string>, links: seq<ConceptLink>) returns (p: Possibility)
    ensures |uris| == 0 ==> p == Possibility(None, true)
    ensures |uris| > 0 ==> p.shareScheme == Some(Matches(current, links, uris[0]))
    ensures p.consistent <==> Consistent(current, links, uris)
  {
    p := Possibility(None, true);
    var i := 0;
    while i < |uris|
      invariant 0 <= i <= |uris|
      invariant p.consistent
      invariant i == 0 <==> p.shareScheme.None?
      invariant i > 0 ==> p.shareScheme == Some(Matches(current, links, uris[0]))
      invariant forall k :: 0 <= k < i ==> Matches(current, links, uris[k]) == Matches(current, links, uris[0])
    {
      var hasMatch := HasSchemesMatch(current, RelationSchemes(links, uris[i]));
      if p.shareScheme.Some? && hasMatch != p.shareScheme.value {
        p := p.(consistent := false);
        return;
      }
      p := p.(shareScheme := Some(hasMatch));
      i := i + 1;
    }
  }

  /** What `addMultipleRelations` does: add the relation to every picked
      concept in order, or show the relation box again. */
  datatype RelationAction =
    | AddRelations(adds: seq<(string, string)>)
    | ShowRelationBox(uris: seq<string>)

  /** When adding is possible: always for concept-scheme relations; otherwise
      the picks must agree, and the relation must be semantic when they share
      a scheme with the current concept and a mapping when they do not (or
      when nothing is picked, as null is falsy). */
  predicate RelationAllowed(withScheme: bool, uris: seq<string>, relation: string,
                            current: seq<string>, links: seq<ConceptLink>)
  {
    || withScheme
    || (&& Consistent(current, links, uris)
        && if |uris| > 0 && Matches(current, links, uris[0]) then relation in SEMANTIC else relation in MAPPING)
  }

  method AddMultipleRelations(withScheme: bool, uris: seq<string>, relation: string,
                              current: seq<string>, links: seq<ConceptLink>) returns (action: RelationAction)
    ensures action.AddRelations? <==> RelationAllowed(withScheme, uris, relation, current, links)
    ensures action.AddRelations? ==>
      |action.adds| == |uris| && forall i :: 0 <= i < |uris| ==> action.adds[i] == (uris[i], relation)
    ensures action.ShowRelationBox? ==> action.uris == uris
  {
    var possible := true;
    if !withScheme {
      var possibility := CheckPossibility(uris, current, links);
      possible := possibility.consistent;
      if possibility.shareScheme == Some(true) {
        if relation !in SEMANTIC { possible := false; }
      } else {
        if relation !in MAPPING { possible := false; }
      }
    }
    if possible {
      var adds: seq<(string, string)> := [];
      var i := 0;
      while i < |uris|
        invariant 0 <= i <= |uris|
        invariant |adds| == i
        invariant forall k :: 0 <= k < i ==> adds[k] == (uris[k], relation)
      {
        adds := adds + [(uris[i], relation)];
        i := i + 1;
      }
      action := AddRelations(adds);
    } else {
      action := ShowRelationBox(uris);
    }
  }

  /** A relation cannot be both allowed as semantic and as mapping for the
      same picks: outside concept schemes the two lists exclude each other. */
  lemma AllowedExcludesOtherList(uris: seq<string>, relation: string, current: seq<string>, links: seq<ConceptLink>)
    requires RelationAllowed(false, uris, relation, current, links)
    ensures relation in SEMANTIC ==> |uris| > 0 && Matches(current, links, uris[0])
    ensures relation in MAPPING ==> !(|uris| > 0 && Matches(current, links, uris[0]))
  {
    SemanticAndMappingDisjoint(relation);
  }

  /** `_createRelationElementLinkOnly` as written: the existence test is
      MooTools `:contains`, a substring match on the listed URI texts. The
      appended clone is taken to show `uri`, as it does when a headed concept
      link elsewhere on the page shows it. */
  function InsertLinkAsWritten(list: seq<string>, uri: string): (r: seq<string>)
    ensures r == list || r == list + [uri]
    ensures r == list + [uri] <==> forall i :: 0 <= i < |list| ==> !Php.ContainsText(list[i], uri)
  {
    if exists i :: 0 <= i < |list| && Php.ContainsText(list[i], uri) then list else list + [uri]
  }

  /** A URI that is a prefix of a listed one is taken as present and never added. */
  lemma InsertLinkAsWrittenDropsPrefix()
    ensures InsertLinkAsWritten(["http://x/10"], "http://x/1") == ["http://x/10"]
    ensures "http://x/1" !in InsertLinkAsWritten(["http://x/10"], "http://x/1")
    ensures InsertLink(["http://x/10"], "http://x/1") == ["http://x/10", "http://x/1"]
  {
    var list := ["http://x/10"];
    assert Php.ContainsText(list[0], "http://x/1") by {
      assert list[0][..10] == "http://x/1";
    }
    assert "http://x/1" != "http://x/10";
  }

  /** The two agree whenever no listed URI text contains the new one other
      than itself. */
  lemma InsertLinkAgrees(list: seq<string>, uri: string)
    requires forall i :: 0 <= i < |list| && Php.ContainsText(list[i], uri) ==> list[i] == uri
    ensures InsertLinkAsWritten(list, uri) == InsertLink(list, uri)
  {
    if uri in list {
      var i :| 0 <= i < |list| && list[i] == uri;
      Php.ContainsItself(uri);
    }
  }
}

=== FILE: php.dfy ===
/** The few PHP built-ins the API layer depends on, with their PHP semantics
    written out: `empty`, `strtolower`, `trim`, `explode`, `implode`,
    `str_replace` of one character, the one-character `substr` with PHP's
    negative-offset rule, and `filter_var(..., FILTER_VALIDATE_BOOLEAN)`.
    PHP strings are byte strings; here a `string` is a sequence of
    characters, so lengths and positions agree with PHP's for ASCII text.
 */
module Php {

  /** `empty($params[$key])` on a query-parameter array: unset, "" and "0" are empty. */
  predicate IsEmpty(params: map<string, string>, key: string)
  {
    key !in params || params[key] == "" || params[key] == "0"
  }

  /** `empty($s)` on a string. */
  predicate IsEmptyString(s: string)
  {
    s == "" || s == "0"
  }

  function LowerChar(c: char): char
  {
    if 'A' <= c <= 'Z' then (c as int + 32) as char else c
  }

  /** `strtolower`: ASCII letters only (locale-independent, as in PHP 8.2). */
  function ToLower(s: string): (r: string)
    ensures |r| == |s|
    ensures forall i :: 0 <= i < |s| ==> r[i] == LowerChar(s[i])
  {
    if |s| == 0 then "" else [LowerChar(s[0])] + ToLower(s[1..])
  }

  /** The lower-case form of a string is "y" exactly for "y" and "Y". */
  lemma LowerIsY(s: string)
    ensures ToLower(s) == "y" <==> s == "y" || s == "Y"
  {
    if ToLower(s) == "y" {
      assert |s| == 1;
      assert LowerChar(s[0]) == 'y';
      assert s == [s[0]];
    }
  }

  /** Characters removed by PHP's `trim` with its default character list. */
  predicate IsTrimmed(c: char)
  {
    c == ' ' || c == '\t' || c == '\n' || c == '\r' || c == '\0' || c == 11 as char
  }

  /** Characters removed by the boolean filter before it compares. */
  predicate IsFilterSpace(c: char)
  {
    c == ' ' || c == '\t' || c == '\n' || c == '\r' || c == 11 as char
  }

  function TrimStart(s: string, strip: char -> bool): (r: string)
    ensures |r| <= |s| && r == s[|s| - |r|..]
    ensures |r| > 0 ==> !strip(r[0])
    ensures forall k :: 0 <= k < |s| - |r| ==> strip(s[k])
  {
    if |s| > 0 && strip(s[0]) then
      var r := TrimStart(s[1..], strip);
      assert s[1..][|s| - 1 - |r|..] == s[|s| - |r|..];
      assert forall k :: 1 <= k < |s| - |r| ==> s[k] == s[1..][k - 1];
      r
    else s
  }

  function TrimEnd(s: string, strip: char -> bool): (r: string)
    ensures |r| <= |s| && r == s[..|r|]
    ensures |r| > 0 ==> !strip(r[|r| - 1])
    ensures forall k :: |r| <= k < |s| ==> strip(s[k])
  {
    if |s| > 0 && strip(s[|s| - 1]) then TrimEnd(s[..|s| - 1], strip) else s
  }

  /** `r` is the part of `s` from index `i` on, and every character of `s`
      before and after it is one `strip` removes. */
  predicate StrippedAround(s: string, r: string, i: int, strip: char -> bool)
  {
    && 0 <= i <= i + |r| <= |s|
    && r == s[i..i + |r|]
    && (forall k :: 0 <= k < i ==> strip(s[k]))
    && (forall k :: i + |r| <= k < |s| ==> strip(s[k]))
  }

  /** Strips the given characters from both ends. */
  function Trim(s: string, strip: char -> bool): (r: string)
    ensures |r| > 0 ==> !strip(r[0]) && !strip(r[|r| - 1])
  {
    TrimEnd(TrimStart(s, strip), strip)
  }

  /** The trimmed string is the part of `s` between a stripped prefix and a
      stripped suffix. */
  lemma TrimKeepsMiddle(s: string, strip: char -> bool)
    ensures exists i :: StrippedAround(s, Trim(s, strip), i, strip)
  {
    var t := TrimStart(s, strip);
    TrimmedBothEnds(s, t, TrimEnd(t, strip), strip);
    assert StrippedAround(s, Trim(s, strip), |s| - |t|, strip);
  }

  /** Stripping a prefix and then a suffix leaves a part between the two. */
  lemma TrimmedBothEnds(s: string, t: string, r: string, strip: char -> bool)
    requires |t| <= |s| && t == s[|s| - |t|..]
    requires forall k :: 0 <= k < |s| - |t| ==> strip(s[k])
    requires |r| <= |t| && r == t[..|r|]
    requires forall k :: |r| <= k < |t| ==> strip(t[k])
    ensures StrippedAround(s, r, |s| - |t|, strip)
  {
    var i := |s| - |t|;
    forall k | i + |r| <= k < |s|
      ensures strip(s[k])
    {
      assert s[k] == t[k - i];
    }
    assert r == s[i..i + |r|];
  }

  /** `filter_var($s, FILTER_VALIDATE_BOOLEAN)`: true only for "1", "true",
      "on" and "yes", ignoring case and surrounding white space. */
  predicate FilterBoolean(s: string)
  {
    ToLower(Trim(s, IsFilterSpace)) in {"1", "true", "on", "yes"}
  }

  /** `explode($sep, $s)` with a one-character separator. */
  function Explode(sep: char, s: string): (parts: seq<string>)
    ensures |parts| >= 1
    ensures forall i :: 0 <= i < |parts| ==> sep !in parts[i]
  {
    if |s| == 0 then [""]
    else
      var rest := Explode(sep, s[1..]);
      if s[0] == sep then [""] + rest
      else [[s[0]] + rest[0]] + rest[1..]
  }

  /** `implode($sep, $parts)` with a one-character separator. */
  function Join(sep: char, parts: seq<string>): string
  {
    if |parts| == 0 then ""
    else if |parts| == 1 then parts[0]
    else parts[0] + [sep] + Join(sep, parts[1..])
  }

  /** `implode` undoes `explode`. */
  lemma {:induction false} JoinExplode(sep: char, s: string)
    ensures Join(sep, Explode(sep, s)) == s
  {
    if |s| > 0 {
      var rest := Explode(sep, s[1..]);
      JoinExplode(sep, s[1..]);
      if s[0] == sep {
        assert Explode(sep, s) == [""] + rest;
        assert s == [s[0]] + s[1..];
      } else {
        var parts := Explode(sep, s);
        assert parts == [[s[0]] + rest[0]] + rest[1..];
        if |rest| == 1 {
          assert s == [s[0]] + rest[0];
        } else {
          assert Join(sep, rest) == rest[0] + [sep] + Join(sep, rest[1..]);
          assert parts[1..] == rest[1..];
          assert s == [s[0]] + s[1..];
        }
      }
    }
  }

  /** `str_replace($from, $to, $s)` for one-character needle and replacement. */
  function ReplaceChar(s: string, from: char, to: char): (r: string)
    ensures |r| == |s|
    ensures forall i :: 0 <= i < |s| ==> r[i] == (if s[i] == from then to else s[i])
  {
    if |s| == 0 then "" else [if s[0] == from then to else s[0]] + ReplaceChar(s[1..], from, to)
  }

  /** `substr($s, $start, 1)` in PHP 8: a negative start counts from the end and
      is clamped to 0; a start at or past the end gives "". */
  function SubstrOne(s: string, start: int): (r: string)
    ensures 0 <= start < |s| ==> r == [s[start]]
    ensures -|s| <= start < 0 ==> r == [s[|s| + start]]
    ensures start < -|s| && |s| > 0 ==> r == [s[0]]
    ensures start >= |s| || |s| == 0 ==> r == ""
  {
    var b := if start >= 0 then start else if -start > |s| then 0 else |s| + start;
    if b >= |s| then "" else [s[b]]
  }

  /** A negative start reads the same character as its distance from the
      end counted forward, and any start reads a character of `s` or none. */
  lemma SubstrOneNegativeStart(s: string, start: int)
    ensures -|s| <= start < 0 ==> SubstrOne(s, start) == SubstrOne(s, |s| + start)
    ensures |SubstrOne(s, start)| == 1 ==> SubstrOne(s, start)[0] in s
    ensures |SubstrOne(s, start)| == 1 <==> |s| > 0 && start < |s|
  {
  }

  /** `substr($s, 0, $n) === $p` for a literal `$p` of length `$n`. */
  predicate HasPrefix(s: string, p: string)
  {
    |p| <= |s| && s[..|p|] == p
  }

  /** MooTools `:contains(text)`: the text occurs somewhere inside `s`. */
  predicate ContainsText(s: string, sub: string)
    decreases |s|
  {
    HasPrefix(s, sub) || (|s| > 0 && ContainsText(s[1..], sub))
  }

  lemma ContainsItself(s: string)
    ensures ContainsText(s, s)
  {
    assert s[..|s|] == s;
  }
}

=== FILE: rdf.dfy ===
/** RDF terms, triples, the triple store, and the in-memory resource the API
    handles (OpenSkos2\Rdf\Resource): an optional URI (none for a blank node)
    and its properties in insertion order, each predicate once, as in PHP's
    ordered arrays.
 */
module Rdf {
  import opened Results

  type Uri = string

  datatype Node = Iri(uri: Uri) | Lit(text: string) | BNode(id: string)

  datatype Triple = Triple(s: Node, p: Uri, o: Node)

  datatype Property = Property(pred: Uri, values: seq<Node>)

  datatype Resource = Resource(uri: Option<Uri>, props: seq<Property>)

  const RDF_TYPE: Uri := "http://www.w3.org/1999/02/22-rdf-syntax-ns#type"
  const OPENSKOS_NS: string := "http://openskos.org/xmlns#"
  const OPENSKOS_UUID: Uri := OPENSKOS_NS + "uuid"
  const OPENSKOS_CODE: Uri := OPENSKOS_NS + "code"
  const OPENSKOS_WEBPAGE: Uri := OPENSKOS_NS + "webpage"
  const OPENSKOS_STATUS: Uri := OPENSKOS_NS + "status"

  /** The textual form a node takes in an error message. */
  function Text(n: Node): string
  {
    match n
    case Iri(u) => u
    case Lit(t) => t
    case BNode(b) => "_:" + b
  }

  predicate IsBlankNode(r: Resource)
  {
    r.uri.None?
  }

  /** The subject node the resource's triples are written with. */
  function Subject(r: Resource): Node
  {
    match r.uri
    case Some(u) => Iri(u)
    case None => BNode("")
  }

  predicate DistinctPreds(props: seq<Property>)
  {
    forall i, j :: 0 <= i < j < |props| ==> props[i].pred != props[j].pred
  }

  function Preds(props: seq<Property>): set<Uri>
  {
    set i | 0 <= i < |props| :: props[i].pred
  }

  /** `getProperty($p)`: the values of predicate `p`, empty when absent. */
  function ValuesOf(props: seq<Property>, p: Uri): (vs: seq<Node>)
    ensures p !in Preds(props) ==> vs == []
  {
    if |props| == 0 then []
    else if props[0].pred == p then props[0].values
    else
      assert Preds(props[1..]) <= Preds(props) by {
        forall q | q in Preds(props[1..]) ensures q in Preds(props) {
          var i :| 0 <= i < |props[1..]| && props[1..][i].pred == q;
          assert props[i + 1].pred == q;
        }
      }
      ValuesOf(props[1..], p)
  }

  function GetProperty(r: Resource, p: Uri): seq<Node>
  {
    ValuesOf(r.props, p)
  }

  /** `addProperty($p, $v)`: appends `v` to the values of `p`, adding `p`
      at the end of the property list when it is new. */
  function AddValue(props: seq<Property>, p: Uri, v: Node): (r: seq<Property>)
    ensures ValuesOf(r, p) == ValuesOf(props, p) + [v]
    ensures forall q :: q != p ==> ValuesOf(r, q) == ValuesOf(props, q)
  {
    if |props| == 0 then [Property(p, [v])]
    else if props[0].pred == p then [Property(p, props[0].values + [v])] + props[1..]
    else [props[0]] + AddValue(props[1..], p, v)
  }

  lemma PredsCons(props: seq<Property>)
    requires |props| > 0
    ensures Preds(props) == {props[0].pred} + Preds(props[1..])
  {
    forall q | q in Preds(props) ensures q in {props[0].pred} + Preds(props[1..]) {
      var i :| 0 <= i < |props| && props[i].pred == q;
      if i > 0 { assert props[1..][i - 1].pred == q; }
    }
  }

  /** Adding a value keeps the predicates distinct and adds exactly `p`. */
  lemma {:induction false} AddValuePreds(props: seq<Property>, p: Uri, v: Node)
    ensures Preds(AddValue(props, p, v)) == Preds(props) + {p}
    ensures DistinctPreds(props) ==> DistinctPreds(AddValue(props, p, v))
  {
    var r := AddValue(props, p, v);
    if |props| == 0 {
      assert Preds(r) == {p};
    } else if props[0].pred == p {
      assert forall i :: 0 <= i < |r| ==> r[i].pred == props[i].pred;
      assert Preds(r) == Preds(props);
    } else {
      var tail := AddValue(props[1..], p, v);
      AddValuePreds(props[1..], p, v);
      assert r == [props[0]] + tail;
      PredsCons(r);
      assert r[1..] == tail;
      PredsCons(props);
      if DistinctPreds(props) {
        forall i | 1 <= i < |r| ensures r[i].pred != props[0].pred {
          assert r[i].pred in Preds(tail);
          if r[i].pred in Preds(props[1..]) {
            var k :| 0 <= k < |props[1..]| && props[1..][k].pred == r[i].pred;
            assert props[k + 1].pred == r[i].pred;
          }
        }
      }
    }
  }

  function AddProperty(r: Resource, p: Uri, v: Node): (r': Resource)
    ensures r'.uri == r.uri
    ensures GetProperty(r', p) == GetProperty(r, p) + [v]
    ensures forall q :: q != p ==> GetProperty(r', q) == GetProperty(r, q)
  {
    Resource(r.uri, AddValue(r.props, p, v))
  }

  /** The triples a resource is written as. */
  function TriplesOf(r: Resource): set<Triple>
  {
    set i, j | 0 <= i < |r.props| && 0 <= j < |r.props[i].values| ::
      Triple(Subject(r), r.props[i].pred, r.props[i].values[j])
  }

  /** Some triple of the store has subject `n`. */
  predicate HasSubject(store: set<Triple>, n: Node)
  {
    exists t :: t in store && t.s == n
  }

  /** `askForUri` / `fetchByUri` finding something: the store describes `u`. */
  predicate AskForUri(store: set<Triple>, u: Uri)
  {
    HasSubject(store, Iri(u))
  }

  /** `resourceExists($n, $type)`: the store types `n` as `type`. */
  predicate ResourceExists(store: set<Triple>, n: Node, typ: Uri)
  {
    Triple(n, RDF_TYPE, Iri(typ)) in store
  }

  /** Every triple with subject `u` removed. */
  function RemoveSubject(store: set<Triple>, u: Uri): (r: set<Triple>)
    ensures !AskForUri(r, u)
    ensures forall t :: t in r <==> t in store && t.s != Iri(u)
  {
    set t | t in store && t.s != Iri(u)
  }
}

=== FILE: relation_integrity.dfy ===
/** Relation admission for concepts (`checkRelationsInConcept` of the Concept
    API): every predicate of a concept is either a concept-to-concept relation
    (built in, or user-defined and then registered) whose targets must exist
    as concepts, or a property from a standard namespace. The duplicate and
    cycle checks live in the concept manager and are consulted as oracles;
    the model records every consultation so that lemmas can say when it
    happens.
 */
module RelationIntegrity {
  import opened Results
  import opened Rdf
  import SkosVocabulary

  /** The collaborators the relation checks consult. */
  datatype RelationEnv = RelationEnv(
    userDefined: set<Uri>,                     // the institution's own relation URIs
    registered: set<Uri>,                      // relations registered in the triple store
    conceptRelations: set<Uri>,                // every concept-to-concept relation URI
    isStandard: Uri -> bool,                   // property from a standard namespace
    duplicated: (Node, Node, Uri) -> Check,    // raises when the edge is already present
    createsCycle: (Node, Node, Uri) -> Check)  // raises when the edge would close a cycle

  datatype QueryKind = Duplicate | Cycle

  /** One consultation of the duplicate or cycle oracle about edge (s, p, o). */
  datatype RelationQuery = RelationQuery(kind: QueryKind, s: Node, o: Node, p: Uri)

  datatype CheckRun = CheckRun(outcome: Check, queries: seq<RelationQuery>)

  predicate IsRelation(env: RelationEnv, p: Uri)
  {
    p in env.conceptRelations
  }

  /** A user-defined relation that has not been registered. */
  predicate Unregistered(env: RelationEnv, p: Uri)
  {
    p in env.userDefined && p !in env.registered
  }

  predicate ConceptExists(store: set<Triple>, n: Node)
  {
    ResourceExists(store, n, SkosVocabulary.CONCEPT_TYPE)
  }

  /** Edge (s, p, t) may be written: the target is a stored concept and
      neither oracle objects. */
  predicate TargetAdmissible(env: RelationEnv, store: set<Triple>, s: Node, p: Uri, t: Node)
  {
    && ConceptExists(store, t)
    && env.duplicated(s, t, p).Passed?
    && env.createsCycle(s, t, p).Passed?
  }

  predicate PropertyAdmissible(env: RelationEnv, store: set<Triple>, s: Node, prop: Property)
  {
    if IsRelation(env, prop.pred) then
      && !Unregistered(env, prop.pred)
      && forall t :: t in prop.values ==> TargetAdmissible(env, store, s, prop.pred, t)
    else env.isStandard(prop.pred)
  }

  /** The oracles are consulted about an edge only once its predicate is an
      admitted relation and its target exists; the cycle oracle only after
      the duplicate oracle has passed. */
  predicate QueryJustified(env: RelationEnv, store: set<Triple>, s: Node, q: RelationQuery)
  {
    && q.s == s
    && IsRelation(env, q.p)
    && !Unregistered(env, q.p)
    && ConceptExists(store, q.o)
    && (q.kind == Cycle ==> env.duplicated(s, q.o, q.p).Passed?)
  }

  /** Both oracles were consulted about edge (s, p, t). */
  predicate BothQueried(qs: seq<RelationQuery>, s: Node, p: Uri, t: Node)
  {
    RelationQuery(Duplicate, s, t, p) in qs && RelationQuery(Cycle, s, t, p) in qs
  }

  /** The inner loop over the targets of one relation property. */
  function CheckTargets(env: RelationEnv, store: set<Triple>, s: Node, p: Uri, targets: seq<Node>): (r: CheckRun)
    requires IsRelation(env, p) && !Unregistered(env, p)
    ensures r.outcome.Passed? <==> forall t :: t in targets ==> TargetAdmissible(env, store, s, p, t)
    ensures forall q :: q in r.queries ==> q.p == p && q.o in targets && QueryJustified(env, store, s, q)
    ensures r.outcome.Passed? ==> forall t :: t in targets ==> BothQueried(r.queries, s, p, t)
  {
    if |targets| == 0 then CheckRun(Passed, [])
    else
      var t := targets[0];
      if !ConceptExists(store, t) then
        assert t in targets;
        CheckRun(Failed(Error(400, MissingRelatedConcept(Text(t)))), [])
      else
        var dup := RelationQuery(Duplicate, s, t, p);
        match env.duplicated(s, t, p)
        case Failed(e) =>
          assert t in targets && !TargetAdmissible(env, store, s, p, t);
          CheckRun(Failed(e), [dup])
        case Passed =>
          var cyc := RelationQuery(Cycle, s, t, p);
          match env.createsCycle(s, t, p)
          case Failed(e) =>
            assert t in targets && !TargetAdmissible(env, store, s, p, t);
            CheckRun(Failed(e), [dup, cyc])
          case Passed =>
            var rest := CheckTargets(env, store, s, p, targets[1..]);
            assert forall u :: u in targets <==> u == t || u in targets[1..];
            CheckRun(rest.outcome, [dup, cyc] + rest.queries)
  }

  /** One iteration of the loop over the concept's predicates. */
  function CheckProperty(env: RelationEnv, store: set<Triple>, s: Node, prop: Property): (r: CheckRun)
    ensures r.outcome.Passed? <==> PropertyAdmissible(env, store, s, prop)
    ensures IsRelation(env, prop.pred) && Unregistered(env, prop.pred) ==>
      r == CheckRun(Failed(Error(400, UnregisteredRelation(prop.pred))), [])
    ensures !IsRelation(env, prop.pred) && !env.isStandard(prop.pred) ==>
      r == CheckRun(Failed(Error(400, NonStandardProperty(prop.pred))), [])
    ensures forall q :: q in r.queries ==> q.p == prop.pred && q.o in prop.values && QueryJustified(env, store, s, q)
    ensures r.outcome.Passed? && IsRelation(env, prop.pred) ==>
      forall t :: t in prop.values ==> BothQueried(r.queries, s, prop.pred, t)
  {
    if IsRelation(env, prop.pred) then
      if Unregistered(env, prop.pred) then
        CheckRun(Failed(Error(400, UnregisteredRelation(prop.pred))), [])
      else CheckTargets(env, store, s, prop.pred, prop.values)
    else if !env.isStandard(prop.pred) then
      CheckRun(Failed(Error(400, NonStandardProperty(prop.pred))), [])
    else CheckRun(Passed, [])
  }

  /** `props[i]` is the first predicate that may not be written. */
  predicate FirstInadmissible(env: RelationEnv, store: set<Triple>, s: Node, props: seq<Property>, i: int)
  {
    && 0 <= i < |props|
    && !PropertyAdmissible(env, store, s, props[i])
    && forall j :: 0 <= j < i ==> PropertyAdmissible(env, store, s, props[j])
  }

  /** The outer loop: stops at the first inadmissible predicate. */
  function CheckProperties(env: RelationEnv, store: set<Triple>, s: Node, props: seq<Property>): (r: CheckRun)
    ensures r.outcome.Passed? <==> forall i :: 0 <= i < |props| ==> PropertyAdmissible(env, store, s, props[i])
    ensures r.outcome.Failed? ==> exists i ::
      FirstInadmissible(env, store, s, props, i) && r.outcome == CheckProperty(env, store, s, props[i]).outcome
    ensures forall q :: q in r.queries ==> QueryJustified(env, store, s, q)
    ensures r.outcome.Passed? ==>
      forall i, t :: 0 <= i < |props| && IsRelation(env, props[i].pred) && t in props[i].values ==>
        BothQueried(r.queries, s, props[i].pred, t)
  {
    if |props| == 0 then CheckRun(Passed, [])
    else
      var first := CheckProperty(env, store, s, props[0]);
      if first.outcome.Failed? then first
      else
        var rest := CheckProperties(env, store, s, props[1..]);
        var r := CheckRun(rest.outcome, first.queries + rest.queries);
        assert forall i :: 1 <= i < |props| ==> props[i] == props[1..][i - 1];
        if rest.outcome.Failed? then
          var k :| FirstInadmissible(env, store, s, props[1..], k)
            && rest.outcome == CheckProperty(env, store, s, props[1..][k]).outcome;
          assert FirstInadmissible(env, store, s, props, k + 1);
          r
        else
        r
  }

  /** `checkRelationsInConcept`: admission of every predicate of the concept. */
  function CheckRelationsInConcept(env: RelationEnv, store: set<Triple>, concept: Resource): (r: CheckRun)
    ensures r.outcome.Passed? <==>
      forall i :: 0 <= i < |concept.props| ==> PropertyAdmissible(env, store, Subject(concept), concept.props[i])
    ensures forall q :: q in r.queries ==> QueryJustified(env, store, Subject(concept), q)
  {
    CheckProperties(env, store, Subject(concept), concept.props)
  }

  /** A concept carrying a user-defined relation that is not registered is
      refused, whatever else it carries. */
  lemma UnregisteredRelationRefused(env: RelationEnv, store: set<Triple>, concept: Resource, i: nat)
    requires i < |concept.props|
    requires IsRelation(env, concept.props[i].pred) && Unregistered(env, concept.props[i].pred)
    ensures CheckRelationsInConcept(env, store, concept).outcome.Failed?
  {
    assert !PropertyAdmissible(env, store, Subject(concept), concept.props[i]);
  }

  /** A relation edge to a target that is not a stored concept is refused. */
  lemma MissingTargetRefused(env: RelationEnv, store: set<Triple>, concept: Resource, i: nat, t: Node)
    requires i < |concept.props|
    requires IsRelation(env, concept.props[i].pred)
    requires t in concept.props[i].values && !ConceptExists(store, t)
    ensures CheckRelationsInConcept(env, store, concept).outcome.Failed?
  {
    assert !TargetAdmissible(env, store, Subject(concept), concept.props[i].pred, t);
  }

  /** When the first inadmissible predicate is an unregistered relation, the
      refusal is the 400 naming it. */
  lemma FirstUnregisteredReported(env: RelationEnv, store: set<Triple>, concept: Resource, i: nat)
    requires i < |concept.props|
    requires IsRelation(env, concept.props[i].pred) && Unregistered(env, concept.props[i].pred)
    requires forall j :: 0 <= j < i ==> PropertyAdmissible(env, store, Subject(concept), concept.props[j])
    ensures CheckRelationsInConcept(env, store, concept).outcome ==
      Failed(Error(400, UnregisteredRelation(concept.props[i].pred)))
  {
    var s := Subject(concept);
    var r := CheckProperties(env, store, s, concept.props);
    assert !PropertyAdmissible(env, store, s, concept.props[i]);
    var k :| FirstInadmissible(env, store, s, concept.props, k)
      && r.outcome == CheckProperty(env, store, s, concept.props[k]).outcome;
    assert k == i;
  }
}

=== FILE: results.dfy ===
/** Failure-compatible result types and the error vocabulary of the API layer.

    Every exception the API classes throw carries an HTTP-like integer code and
    a message; here the message is replaced by a `Reason` naming the check that
    failed, so that callers (and lemmas) can branch on it without string matching.
 */
module Results {

  datatype Option<+T> = None | Some(value: T)

  /** Why a request was refused. One case per check of the API layer. */
  datatype Reason =
    | NoTenant                               // tenant query parameter empty
    | UnknownTenant(code: string)            // tenant code not in the store
    | MissingParameter(name: string)         // a required query parameter is empty
    | NoSuchApiKey(key: string)
    | ApiNotAllowed
    | AccountBlocked
    | InvalidXml                             // body is not well-formed XML
    | WrongRootNode(name: string)            // root element is not rdf:RDF
    | DescriptionCount(count: nat)           // not exactly one rdf:Description
    | NotConvertible                         // description is not of the expected class
    | NotAuthorised
    | UriAlreadyExists(uri: string)
    | UriWithAutoGenerate
    | UuidWithAutoGenerate
    | UriMissing
    | UuidMissing
    | Invalid(message: string)               // structural validator messages, joined
    | NotFound(uri: string)
    | AlreadyDeleted(uri: string)
    | CannotBeDeleted(uri: string)
    | UnregisteredRelation(pred: string)
    | MissingRelatedConcept(target: string)
    | NonStandardProperty(pred: string)
    | NotARelation(pred: string)
    | MissingBodyField(name: string)
    | MissingConcept(uri: string)
    | UnrecognisedField(field: string)
    | DuplicateInstitution(code: string)
    | InstitutionNotFound(code: string)
    | External(message: string)              // raised by a collaborator whose code is not modelled

  datatype Error = Error(code: int, reason: Reason)

  /** A value or the error that stopped the computation. */
  datatype Result<+T> = Ok(value: T) | Fail(error: Error) {
    predicate IsFailure() { Fail? }

    function PropagateFailure<U>(): Result<U>
      requires Fail?
    {
      Fail(error)
    }

    function Extract(): T
      requires Ok?
    {
      value
    }
  }

  /** The outcome of a check that produces no value. */
  datatype Check = Passed | Failed(error: Error) {
    predicate IsFailure() { Failed? }

    function PropagateFailure<U>(): Result<U>
      requires Failed?
    {
      Fail(error)
    }
  }

  function Need(condition: bool, error: Error): (c: Check)
    ensures c.Passed? <==> condition
  {
    if condition then Passed else Failed(error)
  }
}

=== FILE: skos_vocabulary.dfy ===
/** The SKOS vocabulary catalogue of the Concept class: the property
    constants, their grouping into classes (section 8 of the SKOS Reference,
    W3C Recommendation 18 August 2009, for the semantic relations and
    section 10 for the mapping properties), and the constructor that stamps
    rdf:type skos:Concept on a new resource.
 */
module SkosVocabulary {
  import opened Results
  import opened Rdf
  import Php

  const SKOS_NS: string := "http://www.w3.org/2004/02/skos/core#"
  const CONCEPT_TYPE: Uri := SKOS_NS + "Concept"

  /** One constructor per `PROPERTY_*` constant. */
  datatype SkosProperty =
    | ConceptSchemeProp | InScheme | HasTopConcept | TopConceptOf
    | AltLabel | HiddenLabel | PrefLabel
    | Notation
    | ChangeNote | Definition | EditorialNote | Example | HistoryNote | Note | ScopeNote
    | Broader | BroaderTransitive | Narrower | NarrowerTransitive | Related | SemanticRelation
    | CollectionClass | OrderedCollectionClass | Member | MemberList
    | BroadMatch | CloseMatch | ExactMatch | MappingRelation | NarrowMatch | RelatedMatch

  function LocalName(p: SkosProperty): string
  {
    match p
    case ConceptSchemeProp => "conceptScheme"
    case InScheme => "inScheme"
    case HasTopConcept => "hasTopConcept"
    case TopConceptOf => "topConceptOf"
    case AltLabel => "altLabel"
    case HiddenLabel => "hiddenLabel"
    case PrefLabel => "prefLabel"
    case Notation => "notation"
    case ChangeNote => "changeNote"
    case Definition => "definition"
    case EditorialNote => "editorialNote"
    case Example => "example"
    case HistoryNote => "historyNote"
    case Note => "note"
    case ScopeNote => "scopeNote"
    case Broader => "broader"
    case BroaderTransitive => "broaderTransitive"
    case Narrower => "narrower"
    case NarrowerTransitive => "narrowerTransitive"
    case Related => "related"
    case SemanticRelation => "semanticRelation"
    case CollectionClass => "Collection"
    case OrderedCollectionClass => "OrderedCollection"
    case Member => "member"
    case MemberList => "memberList"
    case BroadMatch => "broadMatch"
    case CloseMatch => "closeMatch"
    case ExactMatch => "exactMatch"
    case MappingRelation => "mappingRelation"
    case NarrowMatch => "narrowMatch"
    case RelatedMatch => "relatedMatch"
  }

  /** The URI a constant stands for. */
  function PropertyUri(p: SkosProperty): Uri
  {
    SKOS_NS + LocalName(p)
  }

  /** The local names are told apart by their length, first and last letter. */
  function Signature(s: string): (int, char, char)
  {
    if |s| == 0 then (0, ' ', ' ') else (|s|, s[0], s[|s| - 1])
  }

  function FromSignature(n: int, first: char, last: char): Option<SkosProperty>
  {
    if n == 13 && first == 'c' && last == 'e' then Some(ConceptSchemeProp)
    else if n == 8 && first == 'i' && last == 'e' then Some(InScheme)
    else if n == 13 && first == 'h' && last == 't' then Some(HasTopConcept)
    else if n == 12 && first == 't' && last == 'f' then Some(TopConceptOf)
    else if n == 8 && first == 'a' && last == 'l' then Some(AltLabel)
    else if n == 11 && first == 'h' && last == 'l' then Some(HiddenLabel)
    else if n == 9 && first == 'p' && last == 'l' then Some(PrefLabel)
    else if n == 8 && first == 'n' && last == 'n' then Some(Notation)
    else if n == 10 && first == 'c' && last == 'e' then Some(ChangeNote)
    else if n == 10 && first == 'd' && last == 'n' then Some(Definition)
    else if n == 13 && first == 'e' && last == 'e' then Some(EditorialNote)
    else if n == 7 && first == 'e' && last == 'e' then Some(Example)
    else if n == 11 && first == 'h' && last == 'e' then Some(HistoryNote)
    else if n == 4 && first == 'n' && last == 'e' then Some(Note)
    else if n == 9 && first == 's' && last == 'e' then Some(ScopeNote)
    else if n == 7 && first == 'b' && last == 'r' then Some(Broader)
    else if n == 17 && first == 'b' && last == 'e' then Some(BroaderTransitive)
    else if n == 8 && first == 'n' && last == 'r' then Some(Narrower)
    else if n == 18 && first == 'n' && last == 'e' then Some(NarrowerTransitive)
    else if n == 7 && first == 'r' && last == 'd' then Some(Related)
    else if n == 16 && first == 's' && last == 'n' then Some(SemanticRelation)
    else if n == 10 && first == 'C' && last == 'n' then Some(CollectionClass)
    else if n == 17 && first == 'O' && last == 'n' then Some(OrderedCollectionClass)
    else if n == 6 && first == 'm' && last == 'r' then Some(Member)
    else if n == 10 && first == 'm' && last == 't' then Some(MemberList)
    else if n == 10 && first == 'b' && last == 'h' then Some(BroadMatch)
    else if n == 10 && first == 'c' && last == 'h' then Some(CloseMatch)
    else if n == 10 && first == 'e' && last == 'h' then Some(ExactMatch)
    else if n == 15 && first == 'm' && last == 'n' then Some(MappingRelation)
    else if n == 11 && first == 'n' && last == 'h' then Some(NarrowMatch)
    else if n == 12 && first == 'r' && last == 'h' then Some(RelatedMatch)
    else None
  }

  lemma SignatureRoundTrip(p: SkosProperty)
    ensures var (n, first, last) := Signature(LocalName(p)); FromSignature(n, first, last) == Some(p)
  {
    match ClassOf(p)
    case ConceptSchemes | LexicalLabels | Notations => SignatureRoundTripSchemes(p);
    case DocumentationProperties => SignatureRoundTripDocumentation(p);
    case SemanticRelations | ConceptCollections => SignatureRoundTripRelations(p);
    case MappingProperties => SignatureRoundTripMappings(p);
  }

  lemma SignatureRoundTripSchemes(p: SkosProperty)
    requires ClassOf(p) == ConceptSchemes || ClassOf(p) == LexicalLabels || ClassOf(p) == Notations
    ensures var (n, first, last) := Signature(LocalName(p)); FromSignature(n, first, last) == Some(p)
  {
    match p
    case ConceptSchemeProp => {}
    case InScheme => {}
    case HasTopConcept => {}
    case TopConceptOf => {}
    case AltLabel => {}
    case HiddenLabel => {}
    case PrefLabel => {}
    case Notation => {}
  }

  lemma SignatureRoundTripDocumentation(p: SkosProperty)
    requires ClassOf(p) == DocumentationProperties
    ensures var (n, first, last) := Signature(LocalName(p)); FromSignature(n, first, last) == Some(p)
  {
    match p
    case ChangeNote => {}
    case Definition => {}
    case EditorialNote => {}
    case Example => {}
    case HistoryNote => {}
    case Note => {}
    case ScopeNote => {}
  }

  lemma SignatureRoundTripRelations(p: SkosProperty)
    requires ClassOf(p) == SemanticRelations || ClassOf(p) == ConceptCollections
    ensures var (n, first, last) := Signature(LocalName(p)); FromSignature(n, first, last) == Some(p)
  {
    match p
    case Broader => {}
    case BroaderTransitive => {}
    case Narrower => {}
    case NarrowerTransitive => {}
    case Related => {}
    case SemanticRelation => {}
    case CollectionClass => {}
    case OrderedCollectionClass => {}
    case Member => {}
    case MemberList => {}
  }

  lemma SignatureRoundTripMappings(p: SkosProperty)
    requires ClassOf(p) == MappingProperties
    ensures var (n, first, last) := Signature(LocalName(p)); FromSignature(n, first, last) == Some(p)
  {
    match p
    case BroadMatch => {}
    case CloseMatch => {}
    case ExactMatch => {}
    case MappingRelation => {}
    case NarrowMatch => {}
    case RelatedMatch => {}
  }

  /** Reads a local name back as a constant. */
  function FromLocalName(s: string): Option<SkosProperty>
  {
    var (n, first, last) := Signature(s);
    match FromSignature(n, first, last)
    case Some(p) => if LocalName(p) == s then Some(p) else None
    case None => None
  }

  /** Recognises a URI as one of the constants. */
  function FromUri(u: Uri): Option<SkosProperty>
  {
    if Php.HasPrefix(u, SKOS_NS) then FromLocalName(u[|SKOS_NS|..]) else None
  }

  lemma LocalNameRoundTrip(p: SkosProperty)
    ensures FromLocalName(LocalName(p)) == Some(p)
  {
    SignatureRoundTrip(p);
  }

  /** Every constant is a URI in the SKOS core namespace, and reading it back
      gives the same constant; so distinct constants have distinct URIs. */
  lemma PropertyUriRoundTrip(p: SkosProperty)
    ensures Php.HasPrefix(PropertyUri(p), SKOS_NS)
    ensures FromUri(PropertyUri(p)) == Some(p)
  {
    var u := PropertyUri(p);
    assert u[..|SKOS_NS|] == SKOS_NS;
    assert u[|SKOS_NS|..] == LocalName(p);
    LocalNameRoundTrip(p);
  }

  lemma PropertyUriInjective(p: SkosProperty, q: SkosProperty)
    ensures PropertyUri(p) == PropertyUri(q) ==> p == q
  {
    PropertyUriRoundTrip(p);
    PropertyUriRoundTrip(q);
  }

  lemma ConceptTypeInSkosNamespace()
    ensures Php.HasPrefix(CONCEPT_TYPE, SKOS_NS)
    ensures FromUri(CONCEPT_TYPE) == None
  {
    assert CONCEPT_TYPE[..|SKOS_NS|] == SKOS_NS;
    assert CONCEPT_TYPE[|SKOS_NS|..] == "Concept";
  }

  /** The keys of `$classes`. */
  datatype PropertyClass =
    | ConceptSchemes | LexicalLabels | Notations | DocumentationProperties
    | SemanticRelations | ConceptCollections | MappingProperties

  /** The members of each class, in the order the catalogue lists them. */
  function Members(c: PropertyClass): seq<SkosProperty>
  {
    match c
    case ConceptSchemes => [ConceptSchemeProp, InScheme, HasTopConcept, TopConceptOf]
    case LexicalLabels => [AltLabel, HiddenLabel, PrefLabel]
    case Notations => [Notation]
    case DocumentationProperties =>
      [ChangeNote, Definition, EditorialNote, Example, HistoryNote, Note, ScopeNote]
    case SemanticRelations =>
      [Broader, BroaderTransitive, Narrower, NarrowerTransitive, Related, SemanticRelation]
    case ConceptCollections => [CollectionClass, OrderedCollectionClass, Member, MemberList]
    case MappingProperties =>
      [BroadMatch, CloseMatch, ExactMatch, MappingRelation, NarrowMatch, RelatedMatch]
  }

  function ClassUris(c: PropertyClass): set<Uri>
  {
    set p | p in Members(c) :: PropertyUri(p)
  }

  /** The class a constant is listed under. */
  function ClassOf(p: SkosProperty): PropertyClass
  {
    match p
    case ConceptSchemeProp | InScheme | HasTopConcept | TopConceptOf => ConceptSchemes
    case AltLabel | HiddenLabel | PrefLabel => LexicalLabels
    case Notation => Notations
    case ChangeNote | Definition | EditorialNote | Example | HistoryNote | Note | ScopeNote =>
      DocumentationProperties
    case Broader | BroaderTransitive | Narrower | NarrowerTransitive | Related | SemanticRelation =>
      SemanticRelations
    case CollectionClass | OrderedCollectionClass | Member | MemberList => ConceptCollections
    case BroadMatch | CloseMatch | ExactMatch | MappingRelation | NarrowMatch | RelatedMatch =>
      MappingProperties
  }

  /** Every constant is listed in exactly one class: the classes partition the catalogue. */
  lemma ClassesPartition(p: SkosProperty, c: PropertyClass)
    ensures p in Members(c) <==> ClassOf(p) == c
  {
    ListedUnderOwnClass(p);
    MembersShareClass(c);
  }

  lemma ListedUnderOwnClass(p: SkosProperty)
    ensures p in Members(ClassOf(p))
  {
  }

  lemma MembersShareClass(c: PropertyClass)
    ensures forall i :: 0 <= i < |Members(c)| ==> ClassOf(Members(c)[i]) == c
  {
  }

  /** No URI belongs to two classes. */
  lemma ClassesDisjoint(c1: PropertyClass, c2: PropertyClass)
    requires c1 != c2
    ensures ClassUris(c1) !! ClassUris(c2)
  {
    forall u | u in ClassUris(c1) && u in ClassUris(c2) ensures false {
      var p :| p in Members(c1) && PropertyUri(p) == u;
      var q :| q in Members(c2) && PropertyUri(q) == u;
      PropertyUriInjective(p, q);
      ClassesPartition(p, c1);
      ClassesPartition(q, c2);
    }
  }

  /** `new Concept($uri)`: a resource (blank when no URI is given) whose only
      property is rdf:type skos:Concept. */
  function NewConcept(uri: Option<Uri>): (r: Resource)
    ensures r.uri == uri
    ensures GetProperty(r, RDF_TYPE) == [Iri(CONCEPT_TYPE)]
    ensures forall q :: q != RDF_TYPE ==> GetProperty(r, q) == []
    ensures IsConcept(r)
  {
    AddProperty(Resource(uri, []), RDF_TYPE, Iri(CONCEPT_TYPE))
  }

  /** The resource is typed skos:Concept. */
  predicate IsConcept(r: Resource)
  {
    Iri(CONCEPT_TYPE) in GetProperty(r, RDF_TYPE)
  }
}

=== FILE: tenants.dfy ===
/** The tenant manager's helpers: the per-set summary built from a SPARQL
    answer, the one-institution rule of the uuid lookup, and the three-step
    delete of a tenant with its organisation and address nodes.
 */
module Tenants {
  import opened Results
  import opened Rdf

  const DCTERMS_NS: string := "http://purl.org/dc/terms/"
  const DCTERMS_TITLE: Uri := DCTERMS_NS + "title"
  const DCTERMS_DESCRIPTION: Uri := DCTERMS_NS + "description"
  const VCARD_NS: string := "http://www.w3.org/2006/vcard/ns#"
  const VCARD_ORG: Uri := VCARD_NS + "org"
  const VCARD_ADR: Uri := VCARD_NS + "adr"

  /** One solution of the sets query: set URI, predicate, literal value. */
  datatype SetRow = SetRow(seturi: Uri, p: Uri, o: string)

  type SetSummary = map<Uri, map<string, string>>

  /** The summary key a predicate is filed under, if any. */
  function KeyFor(p: Uri): (k: Option<string>)
    ensures p == DCTERMS_TITLE ==> k == Some("dcterms_title")
    ensures p == DCTERMS_DESCRIPTION ==> k == Some("dcterms_description")
    ensures p == OPENSKOS_WEBPAGE ==> k == Some("openskos_webpage")
    ensures p == OPENSKOS_CODE ==> k == Some("openskos_code")
    ensures p == OPENSKOS_UUID ==> k == Some("openskos_uuid")
    ensures k.None? <==> p !in {DCTERMS_TITLE, DCTERMS_DESCRIPTION, OPENSKOS_WEBPAGE, OPENSKOS_CODE, OPENSKOS_UUID}
  {
    SetPredicatesDistinct();
    if p == DCTERMS_TITLE then Some("dcterms_title")
    else if p == DCTERMS_DESCRIPTION then Some("dcterms_description")
    else if p == OPENSKOS_WEBPAGE then Some("openskos_webpage")
    else if p == OPENSKOS_CODE then Some("openskos_code")
    else if p == OPENSKOS_UUID then Some("openskos_uuid")
    else None
  }

  lemma SetPredicatesDistinct()
    ensures DCTERMS_TITLE != OPENSKOS_CODE && DCTERMS_TITLE != OPENSKOS_UUID && OPENSKOS_CODE != OPENSKOS_UUID
  {
    assert DCTERMS_TITLE[7] == 'p' && OPENSKOS_CODE[7] == 'o' && OPENSKOS_UUID[7] == 'o';
    assert OPENSKOS_CODE[|OPENSKOS_NS|] == 'c' && OPENSKOS_UUID[|OPENSKOS_NS|] == 'u';
  }

  /** One iteration of the loop of `arrangeTripleStoreSets`. */
  function ArrangeStep(acc: SetSummary, row: SetRow): (r: SetSummary)
    ensures r.Keys == acc.Keys + {row.seturi}
  {
    var entry := if row.seturi in acc then acc[row.seturi] else map[];
    match KeyFor(row.p)
    case Some(k) => acc[row.seturi := entry[k := row.o]]
    case None => acc[row.seturi := entry]
  }

  /** `arrangeTripleStoreSets`: the loop over the answer, as a left fold. */
  function Arrange(rows: seq<SetRow>): SetSummary
  {
    if |rows| == 0 then map[] else ArrangeStep(Arrange(rows[..|rows| - 1]), rows[|rows| - 1])
  }

  function SetUris(rows: seq<SetRow>): set<Uri>
  {
    set i | 0 <= i < |rows| :: rows[i].seturi
  }

  /** Every set URI of the answer gets an entry, recognised predicates or not,
      and no other key appears. */
  lemma {:induction false} ArrangeKeys(rows: seq<SetRow>)
    ensures Arrange(rows).Keys == SetUris(rows)
  {
    if |rows| > 0 {
      var front := rows[..|rows| - 1];
      ArrangeKeys(front);
      assert SetUris(rows) == SetUris(front) + {rows[|rows| - 1].seturi} by {
        forall u | u in SetUris(rows) ensures u in SetUris(front) + {rows[|rows| - 1].seturi} {
          var i :| 0 <= i < |rows| && rows[i].seturi == u;
          if i < |rows| - 1 { assert front[i].seturi == u; }
        }
        forall u | u in SetUris(front) ensures u in SetUris(rows) {
          var i :| 0 <= i < |front| && front[i].seturi == u;
          assert rows[i].seturi == u;
        }
      }
    }
  }

  /** A row whose predicate has no key changes nothing once its set has an entry. */
  lemma UnrecognisedRowIgnored(rows: seq<SetRow>, row: SetRow)
    requires KeyFor(row.p).None?
    requires row.seturi in Arrange(rows)
    ensures Arrange(rows + [row]) == Arrange(rows)
  {
    assert (rows + [row])[..|rows|] == rows;
  }

  /** `rows[i]` is the last row for set `s` filed under key `k`. */
  predicate LastRowFor(rows: seq<SetRow>, s: Uri, k: string, i: int)
  {
    && 0 <= i < |rows|
    && rows[i].seturi == s && KeyFor(rows[i].p) == Some(k)
    && forall j :: i < j < |rows| ==> !(rows[j].seturi == s && KeyFor(rows[j].p) == Some(k))
  }

  /** For the same set and key, the later row's value wins. */
  lemma {:induction false} ArrangeLastWins(rows: seq<SetRow>, s: Uri, k: string, i: int)
    requires LastRowFor(rows, s, k, i)
    ensures s in Arrange(rows) && k in Arrange(rows)[s]
    ensures Arrange(rows)[s][k] == rows[i].o
  {
    var n := |rows| - 1;
    var front := rows[..n];
    if i < n {
      assert LastRowFor(front, s, k, i);
      ArrangeLastWins(front, s, k, i);
      assert !(rows[n].seturi == s && KeyFor(rows[n].p) == Some(k));
    }
  }

  /** A key appears for a set only when some row of that set is filed under it. */
  lemma {:induction false} ArrangeKeyOrigin(rows: seq<SetRow>, s: Uri, k: string)
    requires s in Arrange(rows) && k in Arrange(rows)[s]
    ensures exists i :: 0 <= i < |rows| && rows[i].seturi == s && KeyFor(rows[i].p) == Some(k)
  {
    var n := |rows| - 1;
    var front := rows[..n];
    var last := rows[n];
    if last.seturi == s && KeyFor(last.p) == Some(k) {
    } else {
      assert s in Arrange(front) && k in Arrange(front)[s];
      ArrangeKeyOrigin(front, s, k);
      var i :| 0 <= i < |front| && front[i].seturi == s && KeyFor(front[i].p) == Some(k);
      assert rows[i] == front[i];
    }
  }

  /** `fetchSetsForTenant` once the query has answered: nothing for a null or
      empty answer, the arranged summary otherwise. */
  function FetchSetsForTenant(response: Option<seq<SetRow>>): (r: SetSummary)
    ensures r == map[] <==> response.None? || |response.value| == 0
    ensures response.Some? ==> r.Keys == SetUris(response.value)
  {
    match response
    case None => map[]
    case Some(rows) =>
      ArrangeKeys(rows);
      if |rows| > 0 then
        assert rows[0].seturi in SetUris(rows);
        Arrange(rows)
      else map[]
  }

  /** `getTenantUuidFromCode` once the query has answered: exactly one
      institution may carry the code. */
  function TenantUuidFromCode(code: string, uuids: seq<string>): (r: Result<string>)
    ensures r.Ok? <==> |uuids| == 1
    ensures r.Ok? ==> r.value == uuids[0]
    ensures |uuids| > 1 ==> r.error.reason == DuplicateInstitution(code)
    ensures |uuids| == 0 ==> r.error.reason == InstitutionNotFound(code)
  {
    if |uuids| > 1 then Fail(Error(0, DuplicateInstitution(code)))
    else if |uuids| < 1 then Fail(Error(0, InstitutionNotFound(code)))
    else Ok(uuids[0])
  }

  // ---------------------------------------------------------------------
  // Delete
  // ---------------------------------------------------------------------

  /** The objects `r` links to by `link`. */
  function Linked(store: set<Triple>, r: Uri, link: Uri): set<Node>
  {
    set t | t in store && t.s == Iri(r) && t.p == link :: t.o
  }

  /** `DELETE WHERE { <r> link ?object . ?object ?p ?o }`: every solution's
      instantiation of both patterns is removed, so a link goes only when
      its object has triples of its own, and every triple of a linked object
      goes. */
  function DeleteLinked(store: set<Triple>, r: Uri, link: Uri): (after: set<Triple>)
    ensures forall t :: t in after <==>
      && t in store
      && t.s !in Linked(store, r, link)
      && !(t.s == Iri(r) && t.p == link && HasSubject(store, t.o))
  {
    var objects := Linked(store, r, link);
    store
      - (set t | t in store && t.s == Iri(r) && t.p == link && HasSubject(store, t.o))
      - (set t | t in store && t.s in objects)
  }

  /** `delete`: the organisation nodes, then the address nodes, then every
      triple of the tenant. */
  function TenantDelete(store: set<Triple>, r: Uri): (after: set<Triple>)
    ensures after <= store
    ensures !AskForUri(after, r)
  {
    var afterOrg := DeleteLinked(store, r, VCARD_ORG);
    var afterAdr := DeleteLinked(afterOrg, r, VCARD_ADR);
    RemoveSubject(afterAdr, r)
  }

  /** Unless the tenant is its own organisation node, the delete removes
      exactly the tenant's triples and those of its organisation and address
      nodes, and nothing else. */
  lemma TenantDeleteExactly(store: set<Triple>, r: Uri)
    requires Iri(r) !in Linked(store, r, VCARD_ORG)
    ensures forall t :: t in TenantDelete(store, r) <==>
      && t in store
      && t.s != Iri(r)
      && t.s !in Linked(store, r, VCARD_ORG)
      && t.s !in Linked(store, r, VCARD_ADR)
  {
    var afterOrg := DeleteLinked(store, r, VCARD_ORG);
    assert Linked(afterOrg, r, VCARD_ADR) == Linked(store, r, VCARD_ADR) by {
      forall t | t in store && t.s == Iri(r) && t.p == VCARD_ADR ensures t in afterOrg {
        assert VCARD_ADR != VCARD_ORG by {
          assert VCARD_ADR[|VCARD_NS|] == 'a';
          assert VCARD_ORG[|VCARD_NS|] == 'o';
        }
      }
    }
  }

  /** The precondition matters: when the tenant is its own organisation node,
      the first step removes its address link, so the address node's triples
      survive. */
  lemma SelfOrganisationKeepsAddress(r: Uri, a: Uri)
    requires Iri(a) != Iri(r)
    ensures var store := {
        Triple(Iri(r), VCARD_ORG, Iri(r)),
        Triple(Iri(r), VCARD_ADR, Iri(a)),
        Triple(Iri(a), RDF_TYPE, Lit("address"))};
      && Iri(a) in Linked(store, r, VCARD_ADR)
      && Triple(Iri(a), RDF_TYPE, Lit("address")) in TenantDelete(store, r)
  {
    var store := {
      Triple(Iri(r), VCARD_ORG, Iri(r)),
      Triple(Iri(r), VCARD_ADR, Iri(a)),
      Triple(Iri(a), RDF_TYPE, Lit("address"))};
    var t := Triple(Iri(a), RDF_TYPE, Lit("address"));
    assert Triple(Iri(r), VCARD_ADR, Iri(a)) in store;
    var afterOrg := DeleteLinked(store, r, VCARD_ORG);
    assert Linked(store, r, VCARD_ORG) == {Iri(r)} by {
      assert RDF_TYPE != VCARD_ORG by { assert |RDF_TYPE| == 47 && |VCARD_ORG| == 35; }
      assert VCARD_ADR != VCARD_ORG by {
        assert VCARD_ADR[|VCARD_NS|] == 'a';
        assert VCARD_ORG[|VCARD_NS|] == 'o';
      }
    }
    assert t in afterOrg;
    assert Linked(afterOrg, r, VCARD_ADR) == {} ;
  }

  /** The tenant manager's delete removes the tenant, as the generic delete
      pipeline expects of the manager it calls. */
  lemma TenantDeleteRemovesSubject()
    ensures forall s: set<Triple>, u: Uri :: !AskForUri(TenantDelete(s, u), u)
  {
  }
}

=== FILE: triple_store_resource.dfy ===
/** The guard layer of AbstractTripleStoreResource: query-parameter and user
    resolution, the identifier contract, validation, request-body decoding,
    and the create / update / delete pipelines that end in one store write.

    A pipeline is a pure function from the request and the current store to a
    `Run`: the result the API reports and the single write, if any, it asks the
    store to perform. Everything the class delegates to code outside this
    model (authorisation, deletion guard, preprocessor, structural validator,
    RDF-XML conversion, the store's delete, the read-back after a write) is a
    function-valued field of `Manager`.
 */
module TripleStoreResource {
  import opened Results
  import opened Rdf
  import Php
  import RelationIntegrity

  type Params = map<string, string>

  /** A row of the users table: only the fields the API layer reads, and
      the URI of the user's foaf:Person. */
  datatype User = User(role: string, apiAllowed: bool, active: string, person: Uri)

  datatype Operation = CreateOp | EditOp | DeleteOp

  /** What the authorisation module is asked about: the submitted resource,
      a stored resource by URI, or nothing (update passes a variable that is
      never assigned). */
  datatype AuthTarget = Submitted(r: Resource) | Stored(uri: Uri) | Unbound

  /** The authorisation module's answer: a boolean, or an exception. */
  datatype AuthVerdict = Granted | Refused | Raises(error: Error)

  /** What the structural validator reports. */
  datatype Validation = Validation(valid: bool, messages: seq<string>)

  /** The request body after XML parsing: not well-formed, or a document
      with its root element name and its rdf:Description elements. */
  datatype RequestBody = NotWellFormed | XmlDocument(root: string, descriptions: seq<Resource>)

  datatype Manager = Manager(
    resourceType: Uri,
    tenants: map<string, Uri>,                                   // tenant code -> URI
    users: map<string, User>,                                    // API key -> user
    authorise: (User, string, AuthTarget, Operation) -> AuthVerdict,
    canBeDeleted: (Uri, set<Triple>) -> bool,                    // deletion guard
    forCreation: (Uri, Resource, Params, bool) -> Result<Resource>,  // preprocessor built with the person
    forUpdate: (string, Uri, Resource, Params) -> Result<Resource>,  // built with tenant code and person
    validator: (Resource, bool, Uri) -> Validation,
    isInstance: Resource -> bool,                                // converted to the expected class
    deleteResource: (set<Triple>, Uri) -> set<Triple>,           // the manager's delete
    fetchSaved: (set<Triple>, Option<Uri>) -> Result<Resource>,  // fetchByUri, then the RDF transform
    relations: Option<RelationIntegrity.RelationEnv>)            // present for concepts

  const DELETED_STATUS: string := "deleted"

  /** The one write a pipeline may ask for. */
  datatype StoreWrite =
    | InsertResource(r: Resource)
    | ReplaceResource(r: Resource)
    | DeleteUri(uri: Uri)
    | SoftDelete(uri: Uri)
    | AddTriple(t: Triple)
    | RemoveTriple(t: Triple)

  datatype Run<T> = Run(result: Result<T>, write: Option<StoreWrite>)

  /** What reaches the caller of a handler: the response it built, or an
      exception its catch clause did not match. */
  datatype Outcome<T> = Responded(result: Result<T>) | Escaped(error: Error)

  /** The store after a write. */
  function Apply(m: Manager, store: set<Triple>, w: StoreWrite): set<Triple>
  {
    match w
    case InsertResource(r) => store + TriplesOf(r)
    case ReplaceResource(r) => (set t | t in store && t.s != Subject(r)) + TriplesOf(r)
    case DeleteUri(u) => m.deleteResource(store, u)
    case SoftDelete(u) =>
      (set t | t in store && !(t.s == Iri(u) && t.p == OPENSKOS_STATUS))
        + {Triple(Iri(u), OPENSKOS_STATUS, Lit(DELETED_STATUS))}
    case AddTriple(t) => store + {t}
    case RemoveTriple(t) => store - {t}
  }

  function ApplyRun<T>(m: Manager, store: set<Triple>, r: Run<T>): set<Triple>
  {
    match r.write
    case None => store
    case Some(w) => Apply(m, store, w)
  }

  /** A pipeline whose checks produced `checked` writes `w(value)` exactly when
      they passed. */
  function WriteIfPassed<T>(checked: Result<T>, w: T -> StoreWrite): (r: Run<T>)
    ensures r.result == checked
    ensures r.write.Some? <==> checked.Ok?
    ensures checked.Ok? ==> r.write == Some(w(checked.value))
  {
    match checked
    case Ok(v) => Run(Ok(v), Some(w(v)))
    case Fail(e) => Run(Fail(e), None)
  }

  // ---------------------------------------------------------------------
  // Request helpers
  // ---------------------------------------------------------------------

  /** `getAndAdaptQueryParams`: resolves the tenant code once and records it. */
  function GetAndAdaptQueryParams(query: Params, tenants: map<string, Uri>): (r: Result<Params>)
    ensures Php.IsEmpty(query, "tenant") ==> r == Fail(Error(412, NoTenant))
    ensures !Php.IsEmpty(query, "tenant") && query["tenant"] !in tenants ==>
      r == Fail(Error(400, UnknownTenant(query["tenant"])))
    ensures r.Ok? <==> !Php.IsEmpty(query, "tenant") && query["tenant"] in tenants
    ensures r.Ok? ==>
      && r.value.Keys == query.Keys + {"tenantcode", "tenanturi"}
      && r.value["tenantcode"] == query["tenant"]
      && r.value["tenanturi"] == tenants[query["tenant"]]
      && forall k :: k in query && k != "tenantcode" && k != "tenanturi" ==> r.value[k] == query[k]
  {
    if Php.IsEmpty(query, "tenant") then Fail(Error(412, NoTenant))
    else if query["tenant"] !in tenants then Fail(Error(400, UnknownTenant(query["tenant"])))
    else Ok(query["tenantcode" := query["tenant"]]["tenanturi" := tenants[query["tenant"]]])
  }

  /** `getParamValueFromParams`. */
  function GetParamValue(params: Params, name: string): (r: Result<string>)
    ensures r.Ok? <==> !Php.IsEmpty(params, name)
    ensures r.Ok? ==> r.value == params[name] && !Php.IsEmptyString(r.value)
    ensures r.Fail? ==> r.error == Error(412, MissingParameter(name))
  {
    if Php.IsEmpty(params, name) then Fail(Error(412, MissingParameter(name))) else Ok(params[name])
  }

  /** `getUserByKey`: found, allowed to use the API, and active ("y" in any case). */
  function GetUserByKey(users: map<string, User>, key: string): (r: Result<User>)
    ensures r.Ok? <==> key in users && users[key].apiAllowed && users[key].active in {"y", "Y"}
    ensures r.Ok? ==> r.value == users[key]
    ensures r.Fail? ==> r.error.code == 401
    ensures key !in users ==> r.Fail? && r.error.reason == NoSuchApiKey(key)
    ensures key in users && !users[key].apiAllowed ==> r.Fail? && r.error.reason == ApiNotAllowed
  {
    if key !in users then Fail(Error(401, NoSuchApiKey(key)))
    else if !users[key].apiAllowed then Fail(Error(401, ApiNotAllowed))
    else if Php.ToLower(users[key].active) != "y" then
      Php.LowerIsY(users[key].active);
      Fail(Error(401, AccountBlocked))
    else
      Php.LowerIsY(users[key].active);
      Ok(users[key])
  }

  /** `getUserFromParams`: the `key` parameter, then the user it names. */
  function GetUserFromParams(params: Params, users: map<string, User>): (r: Result<User>)
    ensures Php.IsEmpty(params, "key") ==> r == Fail(Error(412, MissingParameter("key")))
    ensures !Php.IsEmpty(params, "key") ==> r == GetUserByKey(users, params["key"])
  {
    var key :- GetParamValue(params, "key");
    GetUserByKey(users, key)
  }

  /** The `autoGenerateIdentifiers` query parameter, read as PHP reads it. */
  predicate AutoGenerateRequested(params: Params)
  {
    !Php.IsEmpty(params, "autoGenerateIdentifiers") && Php.FilterBoolean(params["autoGenerateIdentifiers"])
  }

  /** How PHP reads the parameter: absent, "" and "0" are empty and mean no,
      and `filter_var` reads any other value outside its list as no. */
  lemma AutoGenerateRefusals()
    ensures !AutoGenerateRequested(map[])
    ensures !AutoGenerateRequested(map["autoGenerateIdentifiers" := "0"])
    ensures !AutoGenerateRequested(map["autoGenerateIdentifiers" := "no"])
  {
    var t := Php.Trim("no", Php.IsFilterSpace);
    assert t == "no";
    assert |Php.ToLower(t)| == 2 && Php.ToLower(t)[0] == 'n';
  }

  /** A value PHP does not treat as empty requests generation exactly when
      `filter_var` reads it as true. */
  lemma AutoGenerateByValue(v: string)
    requires !Php.IsEmptyString(v)
    ensures AutoGenerateRequested(map["autoGenerateIdentifiers" := v]) <==> Php.FilterBoolean(v)
  {
    var p := map["autoGenerateIdentifiers" := v];
    assert p["autoGenerateIdentifiers"] == v;
  }

  /** The rule `checkResourceIdentifiers` applies once the parameter is read:
      with generation requested the resource must be blank and carry no uuid;
      otherwise it must carry a URI and a uuid. The URI is checked first.
      Returns whether identifiers are generated. */
  function IdentifierRule(autoGenerate: bool, res: Resource): (r: Result<bool>)
    ensures r.Ok? ==> r.value == autoGenerate
    ensures r.Ok? <==>
      if autoGenerate then IsBlankNode(res) && |GetProperty(res, OPENSKOS_UUID)| == 0
      else !IsBlankNode(res) && |GetProperty(res, OPENSKOS_UUID)| > 0
    ensures autoGenerate && !IsBlankNode(res) ==> r == Fail(Error(400, UriWithAutoGenerate))
    ensures !autoGenerate && IsBlankNode(res) ==> r == Fail(Error(400, UriMissing))
    ensures r.Fail? ==> r.error.code == 400
  {
    var uuids := |GetProperty(res, OPENSKOS_UUID)|;
    if autoGenerate then
      if !IsBlankNode(res) then Fail(Error(400, UriWithAutoGenerate))
      else if uuids > 0 then Fail(Error(400, UuidWithAutoGenerate))
      else Ok(true)
    else
      if IsBlankNode(res) then Fail(Error(400, UriMissing))
      else if uuids == 0 then Fail(Error(400, UuidMissing))
      else Ok(false)
  }

  /** `checkResourceIdentifiers`. */
  function CheckResourceIdentifiers(params: Params, res: Resource): Result<bool>
  {
    IdentifierRule(AutoGenerateRequested(params), res)
  }

  /** The base `validate`: the validator's verdict, its messages joined by one space. */
  function BaseValidate(m: Manager, res: Resource, isForUpdate: bool, tenantUri: Uri): (c: Check)
    ensures c.Passed? <==> m.validator(res, isForUpdate, tenantUri).valid
    ensures c.Failed? ==>
      c.error == Error(400, Invalid(Php.Join(' ', m.validator(res, isForUpdate, tenantUri).messages)))
  {
    var v := m.validator(res, isForUpdate, tenantUri);
    if !v.valid then Failed(Error(400, Invalid(Php.Join(' ', v.messages)))) else Passed
  }

  /** `validate` as dispatched: the concept API adds the relation checks
      after the base validation. */
  function Validate(m: Manager, store: set<Triple>, res: Resource, isForUpdate: bool, tenantUri: Uri): (c: Check)
    ensures c.Passed? <==>
      && m.validator(res, isForUpdate, tenantUri).valid
      && (m.relations.Some? ==>
            forall i :: 0 <= i < |res.props| ==>
              RelationIntegrity.PropertyAdmissible(m.relations.value, store, Subject(res), res.props[i]))
  {
    var base := BaseValidate(m, res, isForUpdate, tenantUri);
    if base.Failed? then base
    else match m.relations
      case None => Passed
      case Some(env) => RelationIntegrity.CheckRelationsInConcept(env, store, res).outcome
  }

  /** `getResourceObjectFromRequestBody` after parsing: a well-formed
      document whose root is rdf:RDF with exactly one rdf:Description, which
      gets the manager's rdf:type appended and must convert to the expected
      class. */
  function DecodeBody(m: Manager, body: RequestBody): (r: Result<Resource>)
    ensures r.Ok? <==>
      && body.XmlDocument?
      && body.root == "rdf:RDF"
      && |body.descriptions| == 1
      && m.isInstance(AddProperty(body.descriptions[0], RDF_TYPE, Iri(m.resourceType)))
    ensures body.XmlDocument? && body.root == "rdf:RDF" && |body.descriptions| != 1 ==>
      r == Fail(Error(412, DescriptionCount(|body.descriptions|)))
    ensures r.Fail? ==> r.error.code in {400, 412}
    ensures r.Ok? ==>
      && r.value.uri == body.descriptions[0].uri
      && GetProperty(r.value, RDF_TYPE) == GetProperty(body.descriptions[0], RDF_TYPE) + [Iri(m.resourceType)]
      && forall q :: q != RDF_TYPE ==> GetProperty(r.value, q) == GetProperty(body.descriptions[0], q)
  {
    match body
    case NotWellFormed => Fail(Error(412, InvalidXml))
    case XmlDocument(root, descriptions) =>
      if root != "rdf:RDF" then Fail(Error(412, WrongRootNode(root)))
      else if |descriptions| != 1 then Fail(Error(412, DescriptionCount(|descriptions|)))
      else
        var res := AddProperty(descriptions[0], RDF_TYPE, Iri(m.resourceType));
        if !m.isInstance(res) then Fail(Error(400, NotConvertible)) else Ok(res)
  }

  /** An authorisation answer whose boolean is checked: false is a 403. */
  function AuthoriseByAnswer(v: AuthVerdict): (c: Check)
    ensures c.Passed? <==> v == Granted
    ensures v == Refused ==> c == Failed(Error(403, NotAuthorised))
  {
    match v
    case Granted => Passed
    case Refused => Failed(Error(403, NotAuthorised))
    case Raises(e) => Failed(e)
  }

  // ---------------------------------------------------------------------
  // Pipelines
  // ---------------------------------------------------------------------

  /** The resolved parts of a request. */
  datatype Request = Request(params: Params, user: User, resource: Resource)

  predicate Adapted(params: Params)
  {
    "tenantcode" in params && "tenanturi" in params
  }

  /** The first three steps of `create`: tenant, user, body. */
  function CreateRequest(m: Manager, query: Params, body: RequestBody): (r: Result<Request>)
    ensures r.Ok? ==> Adapted(r.value.params)
    ensures r.Ok? ==> DecodeBody(m, body) == Ok(r.value.resource)
    ensures r.Ok? ==> GetAndAdaptQueryParams(query, m.tenants) == Ok(r.value.params)
  {
    var params :- GetAndAdaptQueryParams(query, m.tenants);
    var user :- GetUserFromParams(params, m.users);
    var res :- DecodeBody(m, body);
    Ok(Request(params, user, res))
  }

  /** The submitted resource names a URI the store already describes. */
  predicate UriTaken(store: set<Triple>, res: Resource)
  {
    !IsBlankNode(res) && AskForUri(store, res.uri.value)
  }

  /** The checks of `create` after the request is resolved, in source order;
      the value is the preprocessed resource that will be inserted. */
  function CreateChecks(m: Manager, store: set<Triple>, rq: Request): Result<Resource>
    requires Adapted(rq.params)
  {
    var res := rq.resource;
    :- AuthoriseByAnswer(m.authorise(rq.user, rq.params["tenantcode"], Submitted(res), CreateOp));
    :- Need(!UriTaken(store, res), Error(400, UriAlreadyExists(if res.uri.Some? then res.uri.value else "")));
    var generate :- CheckResourceIdentifiers(rq.params, res);
    var pre :- m.forCreation(rq.user.person, res, rq.params, generate);
    :- Validate(m, store, pre, false, rq.params["tenanturi"]);
    Ok(pre)
  }

  /** The submitted resource and the preprocessed one a pipeline writes. */
  datatype Checked = Checked(submitted: Resource, pre: Resource)

  /** Everything `create` does before the insert. */
  function CreateChecked(m: Manager, store: set<Triple>, query: Params, body: RequestBody): (r: Result<Checked>)
    ensures r.Ok? <==> CreateRequest(m, query, body).Ok? && CreateChecks(m, store, CreateRequest(m, query, body).value).Ok?
    ensures r.Ok? ==>
      && r.value.submitted == CreateRequest(m, query, body).value.resource
      && r.value.pre == CreateChecks(m, store, CreateRequest(m, query, body).value).value
  {
    var rq :- CreateRequest(m, query, body);
    var pre :- CreateChecks(m, store, rq);
    Ok(Checked(rq.resource, pre))
  }

  /** The status `create` answers a failure with: the exception's code,
      with 0 read as 500. */
  function ReportedCode(code: int): (status: int)
    ensures status != 0
    ensures code != 0 ==> status == code
  {
    if code == 0 then 500 else code
  }

  function Reported(e: Error): Error
  {
    Error(ReportedCode(e.code), e.reason)
  }

  /** `create`: resolve and check, insert the preprocessed resource, then
      read back what the store holds under the submitted URI. A failure
      before the insert writes nothing; a failed read-back is reported
      although the insert happened. No failure is reported with code 0. */
  function Create(m: Manager, store: set<Triple>, query: Params, body: RequestBody): (r: Run<Resource>)
    ensures r.write.Some? <==> CreateChecked(m, store, query, body).Ok?
    ensures r.write.Some? ==> r.write == Some(InsertResource(CreateChecked(m, store, query, body).value.pre))
    ensures r.result.Ok? ==> r.write.Some?
    ensures r.result.Fail? ==> r.result.error.code != 0
  {
    match CreateChecked(m, store, query, body)
    case Fail(e) => Run(Fail(Reported(e)), None)
    case Ok(c) =>
      var w := InsertResource(c.pre);
      match m.fetchSaved(Apply(m, store, w), c.submitted.uri)
      case Ok(saved) => Run(Ok(saved), Some(w))
      case Fail(e) => Run(Fail(Reported(e)), Some(w))
  }

  /** A failure before the insert is answered with its own code and reason,
      except that code 0 becomes 500. */
  lemma CreateReportsCheckFailure(m: Manager, store: set<Triple>, query: Params, body: RequestBody)
    requires CreateChecked(m, store, query, body).Fail?
    ensures var e := CreateChecked(m, store, query, body).error;
      && Create(m, store, query, body).write.None?
      && Create(m, store, query, body).result == Fail(if e.code == 0 then Error(500, e.reason) else e)
  {
  }

  /** After the insert the store is asked for the submitted URI, not the
      preprocessed one: a failed read-back is reported (0 as 500) with the
      insert done, and when the identifiers were generated for a blank
      submission the store is asked about no URI at all. */
  lemma CreateReadsBackSubmittedUri(m: Manager, store: set<Triple>, query: Params, body: RequestBody)
    requires Create(m, store, query, body).write.Some?
    ensures var c := CreateChecked(m, store, query, body).value;
      var after := Apply(m, store, InsertResource(c.pre));
      var back := m.fetchSaved(after, c.submitted.uri);
      var run := Create(m, store, query, body);
      && run.write == Some(InsertResource(c.pre))
      && (back.Ok? ==> run.result == back)
      && (back.Fail? ==> run.result == Fail(if back.error.code == 0 then Error(500, back.error.reason) else back.error))
      && (IsBlankNode(c.submitted) ==> back == m.fetchSaved(after, None))
  {
  }

  /** No insert without authorisation: a refusal is a 403 and an exception
      from the module is reported as is; both stop before the store is asked
      anything else. */
  lemma CreateNeedsAuthorisation(m: Manager, store: set<Triple>, query: Params, body: RequestBody)
    requires CreateRequest(m, query, body).Ok?
    requires var rq := CreateRequest(m, query, body).value;
      m.authorise(rq.user, rq.params["tenantcode"], Submitted(rq.resource), CreateOp) != Granted
    ensures Create(m, store, query, body).write.None?
    ensures var rq := CreateRequest(m, query, body).value;
      m.authorise(rq.user, rq.params["tenantcode"], Submitted(rq.resource), CreateOp) == Refused ==>
        Create(m, store, query, body).result == Fail(Error(403, NotAuthorised))
  {
  }

  /** No insert over an existing resource: once authorised, a submitted URI
      the store already describes is a 400, before the identifiers are
      looked at. */
  lemma CreateRefusesExistingUri(m: Manager, store: set<Triple>, query: Params, body: RequestBody)
    requires CreateRequest(m, query, body).Ok?
    requires var rq := CreateRequest(m, query, body).value;
      m.authorise(rq.user, rq.params["tenantcode"], Submitted(rq.resource), CreateOp) == Granted
    requires UriTaken(store, CreateRequest(m, query, body).value.resource)
    ensures Create(m, store, query, body).write.None?
    ensures Create(m, store, query, body).result.Fail?
    ensures Create(m, store, query, body).result.error.code == 400
  {
  }

  /** Every insert was authorised, is of a fresh URI, passed the identifier
      contract, and its preprocessed resource passed validation (for concepts:
      every predicate admitted by the relation checks). */
  lemma CreateWritesOnlyCheckedResources(m: Manager, store: set<Triple>, query: Params, body: RequestBody)
    requires Create(m, store, query, body).write.Some?
    ensures CreateRequest(m, query, body).Ok?
    ensures var rq := CreateRequest(m, query, body).value;
      var pre := Create(m, store, query, body).write.value.r;
      && m.authorise(rq.user, rq.params["tenantcode"], Submitted(rq.resource), CreateOp) == Granted
      && !UriTaken(store, rq.resource)
      && CheckResourceIdentifiers(rq.params, rq.resource).Ok?
      && m.forCreation(rq.user.person, rq.resource, rq.params, AutoGenerateRequested(rq.params)) == Ok(pre)
      && Validate(m, store, pre, false, rq.params["tenanturi"]).Passed?
  {
  }

  /** The checks of `update`: decode, refuse a blank resource, resolve,
      preprocess, then authorise and validate. */
  function UpdateChecks(m: Manager, store: set<Triple>, query: Params, body: RequestBody): Result<Checked>
  {
    var res :- DecodeBody(m, body);
    :- Need(!IsBlankNode(res), Error(400, UriMissing));
    var params :- GetAndAdaptQueryParams(query, m.tenants);
    var user :- GetUserFromParams(params, m.users);
    var pre :- m.forUpdate(params["tenantcode"], user.person, res, params);
    :- AuthoriseByAnswer(m.authorise(user, params["tenantcode"], Unbound, EditOp));
    :- Validate(m, store, pre, true, params["tenanturi"]);
    Ok(Checked(res, pre))
  }

  /** `update`: the checks, the replace, then the read-back under the
      submitted URI, whose failure is reported although the replace
      happened. Codes are reported as they are. */
  function Update(m: Manager, store: set<Triple>, query: Params, body: RequestBody): (r: Run<Resource>)
    ensures r.write.Some? <==> UpdateChecks(m, store, query, body).Ok?
    ensures r.write.Some? ==> r.write == Some(ReplaceResource(UpdateChecks(m, store, query, body).value.pre))
    ensures r.result.Ok? ==> r.write.Some?
    ensures UpdateChecks(m, store, query, body).Fail? ==> r.result == Fail(UpdateChecks(m, store, query, body).error)
  {
    match UpdateChecks(m, store, query, body)
    case Fail(e) => Run(Fail(e), None)
    case Ok(c) =>
      var w := ReplaceResource(c.pre);
      Run(m.fetchSaved(Apply(m, store, w), c.submitted.uri), Some(w))
  }

  /** The read-back after a replace asks for the decoded resource's own URI,
      which the blank check guarantees is present. */
  lemma UpdateReadsBackSubmittedUri(m: Manager, store: set<Triple>, query: Params, body: RequestBody)
    requires UpdateChecks(m, store, query, body).Ok?
    ensures DecodeBody(m, body).Ok? && DecodeBody(m, body).value.uri.Some?
    ensures var c := UpdateChecks(m, store, query, body).value;
      Update(m, store, query, body).result
        == m.fetchSaved(Apply(m, store, ReplaceResource(c.pre)), DecodeBody(m, body).value.uri)
  {
  }

  /** A blank resource is never written by `update`, whatever else holds. */
  lemma UpdateRefusesBlank(m: Manager, store: set<Triple>, query: Params, body: RequestBody)
    requires DecodeBody(m, body).Ok? && IsBlankNode(DecodeBody(m, body).value)
    ensures Update(m, store, query, body).result == Fail(Error(400, UriMissing))
    ensures Update(m, store, query, body).write.None?
  {
  }

  /** Every replace was of a named resource, authorised, and its
      preprocessed form passed validation for update. */
  lemma UpdateWritesOnlyCheckedResources(m: Manager, store: set<Triple>, query: Params, body: RequestBody)
    requires Update(m, store, query, body).write.Some?
    ensures DecodeBody(m, body).Ok? && !IsBlankNode(DecodeBody(m, body).value)
    ensures GetAndAdaptQueryParams(query, m.tenants).Ok?
    ensures var params := GetAndAdaptQueryParams(query, m.tenants).value;
      var pre := Update(m, store, query, body).write.value.r;
      && GetUserFromParams(params, m.users).Ok?
      && m.forUpdate(params["tenantcode"], GetUserFromParams(params, m.users).value.person,
                     DecodeBody(m, body).value, params) == Ok(pre)
      && m.authorise(GetUserFromParams(params, m.users).value, params["tenantcode"], Unbound, EditOp) == Granted
      && Validate(m, store, pre, true, params["tenanturi"]).Passed?
  {
  }

  /** `deleteResourceObject` up to the store delete, in source order: uri
      parameter, existence, user, authorisation, deletion guard. */
  function DeleteChecks(m: Manager, store: set<Triple>, query: Params): (r: Result<Uri>)
    ensures r.Ok? ==> AskForUri(store, r.value)
    ensures GetAndAdaptQueryParams(query, m.tenants).Fail? ==>
      r == Fail(GetAndAdaptQueryParams(query, m.tenants).error)
    ensures GetAndAdaptQueryParams(query, m.tenants).Ok? ==>
      var p := GetAndAdaptQueryParams(query, m.tenants).value;
      && (Php.IsEmpty(p, "uri") ==> r == Fail(Error(0, MissingParameter("uri"))))
      && (!Php.IsEmpty(p, "uri") && !AskForUri(store, p["uri"]) ==> r == Fail(Error(404, NotFound(p["uri"]))))
  {
    var params :- GetAndAdaptQueryParams(query, m.tenants);
    :- Need(!Php.IsEmpty(params, "uri"), Error(0, MissingParameter("uri")));
    var uri := params["uri"];
    :- Need(AskForUri(store, uri), Error(404, NotFound(uri)));
    var user :- GetUserFromParams(params, m.users);
    :- AuthoriseByAnswer(m.authorise(user, params["tenantcode"], Stored(uri), DeleteOp));
    :- Need(m.canBeDeleted(uri, store), Error(412, CannotBeDeleted(uri)));
    Ok(uri)
  }

  /** Past the 404, in source order: the user, then the authorisation
      answer (a refusal is 403, an exception is reported as is), then the
      deletion guard (412); with all three passed the checked URI is the
      result. */
  lemma DeleteAfterLookup(m: Manager, store: set<Triple>, query: Params)
    requires GetAndAdaptQueryParams(query, m.tenants).Ok?
    requires var p := GetAndAdaptQueryParams(query, m.tenants).value;
      !Php.IsEmpty(p, "uri") && AskForUri(store, p["uri"])
    ensures var p := GetAndAdaptQueryParams(query, m.tenants).value;
      var uri, r := p["uri"], DeleteChecks(m, store, query);
      && (GetUserFromParams(p, m.users).Fail? ==> r == Fail(GetUserFromParams(p, m.users).error))
      && (GetUserFromParams(p, m.users).Ok? ==>
            var verdict := m.authorise(GetUserFromParams(p, m.users).value, p["tenantcode"], Stored(uri), DeleteOp);
            && (verdict == Refused ==> r == Fail(Error(403, NotAuthorised)))
            && (verdict.Raises? ==> r == Fail(verdict.error))
            && (verdict == Granted && !m.canBeDeleted(uri, store) ==> r == Fail(Error(412, CannotBeDeleted(uri))))
            && (verdict == Granted && m.canBeDeleted(uri, store) ==> r == Ok(uri)))
  {
  }

  function DeleteResourceObject(m: Manager, store: set<Triple>, query: Params): (r: Run<Uri>)
    ensures r.write.Some? <==> r.result.Ok?
    ensures r.result.Ok? ==> r.write == Some(DeleteUri(r.result.value))
  {
    WriteIfPassed(DeleteChecks(m, store, query), (u: Uri) => DeleteUri(u))
  }

  /** The store delete runs only for a stored resource whose deletion was
      authorised and allowed by the deletion guard. */
  lemma DeleteWritesOnlyAfterChecks(m: Manager, store: set<Triple>, query: Params)
    requires DeleteResourceObject(m, store, query).write.Some?
    ensures var params := GetAndAdaptQueryParams(query, m.tenants);
      && params.Ok?
      && var uri := params.value["uri"];
      && DeleteResourceObject(m, store, query).write == Some(DeleteUri(uri))
      && AskForUri(store, uri)
      && GetUserFromParams(params.value, m.users).Ok?
      && m.authorise(GetUserFromParams(params.value, m.users).value, params.value["tenantcode"],
                     Stored(uri), DeleteOp) == Granted
      && m.canBeDeleted(uri, store)
  {
  }

  /** Checks come in order: an unknown resource is a 404 before the user or
      the authorisation module is consulted. */
  lemma DeleteUnknownIsNotFound(m: Manager, store: set<Triple>, query: Params)
    requires GetAndAdaptQueryParams(query, m.tenants).Ok?
    requires var params := GetAndAdaptQueryParams(query, m.tenants).value;
      !Php.IsEmpty(params, "uri") && !AskForUri(store, params["uri"])
    ensures DeleteResourceObject(m, store, query).result.Fail?
    ensures DeleteResourceObject(m, store, query).result.error.code == 404
  {
  }

  /** After a successful delete by a manager whose delete removes the
      resource's own triples, deleting it again is a 404. */
  lemma DeleteTwiceIsNotFound(m: Manager, store: set<Triple>, query: Params)
    requires DeleteResourceObject(m, store, query).result.Ok?
    requires forall s: set<Triple>, u: Uri :: !AskForUri(m.deleteResource(s, u), u)
    ensures var after := ApplyRun(m, store, DeleteResourceObject(m, store, query));
      DeleteResourceObject(m, after, query).result.Fail?
      && DeleteResourceObject(m, after, query).result.error.code == 404
  {
    var uri := DeleteResourceObject(m, store, query).result.value;
    var after := ApplyRun(m, store, DeleteResourceObject(m, store, query));
    assert after == m.deleteResource(store, uri);
    assert !AskForUri(after, uri);
  }
}
